=== FILE: README.md ===
# PL/0 compiler and PM/0 machine in Dafny

This project models two C programs: the extended PL/0 compiler `hw4compiler.c` and the PM/0 virtual machine `hw4-vm.c`. It proves properties of both models.

**The compiler.**
- Its scanner makes two passes over the source lines:
  - The first pass only validates. It records every lexical error, up to 100 of them.
  - The second pass runs only when the first recorded nothing, and produces the token list.
- Parsing and code generation happen in one recursive descent. That descent threads a state through pure functions. The state holds the token list, the position, the lexical level, the symbol table and the code.
- The symbol table is append-only. A symbol leaves scope by being marked, and lookup scans backwards.
- `error(n)` ends the C program, so every parse function returns `Failure(Syntax(n))` at the first error.
- `emit` fails once 500 instructions exist.

**The machine.**
- It has a 500-cell memory. The program is loaded from cell 10 in triples. The registers start at pc 10, bp 499 and sp 500, and the stack grows downward.
- `Step` is one turn of the fetch-execute loop. `Run` repeats it under a fuel bound.
- The console is two integer sequences, one consumed and one produced.
- C leaves some operations undefined: an access outside the array, division or remainder by zero, a 32-bit overflow, and a read with no input left. Each of these is an explicit `Fault`, never a value.

Files:
- `results.dfy`: `Option` and `Result`.
- `cint.dfy`: C's 32-bit `int` range, and `/` and `%` that truncate toward zero.
- `tokens.dfy`: token kinds and their codes, the reserved words, and spellings.
- `source_lines.dfy`: how `fgets` cuts the text into lines.
- `lexer.dfy`: the two scanning passes.
- `lexer_roundtrip.dfy`: the proof that scanning undoes spelling.
- `symbols.dfy`: the symbol table.
- `codegen.dfy`: the parser and code generator.
- `pipeline.dfy`: the driver, plus programs compiled by hand.
- `machine.dfy`: the virtual machine.

The compiler is modelled as written, including these quirks:
- `expression` parses only `{(+|-) term}`; it has no leading term.
- `if` needs both `else` and `fi`.
- A procedure's address is overwritten with the index past its return.
- The leading `JMP` ends up with `M = 1`.
- The final period check looks at the last token of the list.
- `mod` is emitted as `OPR 0 11`, the same code as `<=`.

Two more behaviours of the code are modelled as written:
- **Redeclaring a name.** A declaration is rejected when `find_symbol` resolves the name from the current level. That includes names declared in enclosing blocks, so an inner block cannot shadow an outer name. The model proves that live names stay pairwise distinct.
- **Parse errors.** The first parse error ends compilation; there is no resynchronisation.

## Model

| member | source | states |
|---|---|---|
| Tokens.CodeIsInjective | hw4compiler.c:19-27 | token codes are 1..33 and no two kinds share a code |
| Tokens.Reserved | hw4compiler.c:163-180 | a spelling is found exactly when it is one of the 15 case-sensitive reserved words, and then it maps to the keyword spelled that way |
| Tokens.ReservedWord | hw4compiler.c:163-180 | `isReservedWord` gives 0 exactly for non-reserved spellings; otherwise it gives the code of the keyword with that spelling |
| Tokens.ReservedRecognisesKeywords | hw4compiler.c:163-180 | every keyword's spelling is looked up to that keyword and its code |
| SourceLines.ChunkEnd | hw4compiler.c:183-186 | an `fgets` piece ends at the first newline, at 255 characters, or at the end of the text, whichever comes first |
| SourceLines.Lines | hw4compiler.c:183-186 | every piece is non-empty and at most 255 characters long |
| SourceLines.LinesCoverText | hw4compiler.c:186 | the pieces concatenated give back the whole text |
| SourceLines.LinesBreakAtNewlines | hw4compiler.c:186 | a newline only ever ends a piece; a piece without one is full or the last |
| SourceLines.LinesOfNewlineTerminated | hw4compiler.c:186 | a short newline-terminated line is delivered whole, ahead of the rest |
| Lexer.Span | hw4compiler.c:221-225 | the maximal run of a character class starting at i: every character before the end is in the class and the character at the end is not |
| Lexer.CommentEnd | hw4compiler.c:200-213 | the scan stops at the first `*/` or at the line's end |
| Lexer.CheckStep | hw4compiler.c:189-289 | the validation step for each case: whitespace is skipped; a comment is skipped to just past its first `*/`, and is reported exactly when the line ends before one; an identifier longer than 11 is reported; a digit run longer than 5 is reported; a digit run followed by `.` is reported and skipped with its dots; `<`, `<=`, `<>`, `>`, `>=`, `:=` and the one-character symbols are passed over with nothing reported; `:` without `=` is reported; any unlisted character is reported |
| Lexer.Lexeme | hw4compiler.c:219-226 | the buffer copy equals the source text when it is at most 99 characters |
| Lexer.TokenStep | hw4compiler.c:300-393 | the token step: a letter run becomes its reserved keyword, or `Ident` carrying its spelling exactly when it is not reserved; a digit run becomes `Number`; `<=`, `<>`, `>=` and `:=` are single tokens, a lone `<` or `>` is `Lss` or `Gtr`, and each one-character symbol is its own token; a comment is skipped to just past its first `*/`; whitespace, a lone `:` and any unlisted character yield nothing |
| Lexer.Tokenize | hw4compiler.c:182-397 | scanning fails exactly when some line has a lexical error, with 1 to 100 messages; on success every token is well formed |
| Lexer.Cap | hw4compiler.c:147-153 | the recorded list is a prefix of the findings, of at most 100 entries |
| Lexer.AddErrorsCaps | hw4compiler.c:147-153 | recording findings one by one with `add_error` keeps the first 100 of them |
| Lexer.CapOfCap | hw4compiler.c:147-153 | capping early and capping at the end record the same messages |
| Lexer.CheckLinesCollectsAll | hw4compiler.c:186-291 | validation never stops early: the record is every line's findings in order, capped at 100 |
| Lexer.AllLineErrorsEmpty | hw4compiler.c:186-291 | there are no findings at all exactly when each line has none |
| Lexer.CheckLinesFindsEveryLine | hw4compiler.c:186-293 | something is recorded exactly when some line breaks a lexical rule |
| Lexer.StepsAgree | hw4compiler.c:300-393 | where validation finds nothing, the token pass advances to the same position and yields only well-formed tokens |
| Lexer.CleanLineTokensWellFormed | hw4compiler.c:300-393 | a line without findings yields well-formed tokens carrying its line number |
| Lexer.TokensOfCleanLinesWellFormed | hw4compiler.c:293-397 | every token of an error-free text is well formed |
| LexerRoundTrip.SpellingLineShape | hw4compiler.c:186 | a well-formed token's spelling fits on one line |
| LexerRoundTrip.WordLine | hw4compiler.c:322-357 | an identifier or number alone on a line scans cleanly back to itself |
| LexerRoundTrip.FixedLine | hw4compiler.c:359-390 | every keyword or operator alone on a line scans cleanly back to its kind |
| LexerRoundTrip.ReservedWordLine | hw4compiler.c:322-339 | a reserved word alone on a line scans cleanly to its keyword, which keeps no spelling |
| LexerRoundTrip.KeywordLine | hw4compiler.c:322-339 | every keyword's own spelling alone on a line scans cleanly back to that keyword |
| LexerRoundTrip.PunctuationLine | hw4compiler.c:359-390 | every one-character operator alone on a line scans cleanly back to its kind |
| LexerRoundTrip.SpellingLineScans | hw4compiler.c:300-393 | one well-formed token on a line scans without error back to itself |
| LexerRoundTrip.UnlexLines | hw4compiler.c:186 | the spelled token list is read back as one line per token |
| LexerRoundTrip.SpellingLinesClean | hw4compiler.c:186-291 | the validation pass finds nothing on any line of the spelled text |
| LexerRoundTrip.SpellingLinesTokens | hw4compiler.c:297-395 | the token pass over those lines gives back the tokens, numbered by line |
| LexerRoundTrip.RoundTrip | hw4compiler.c:182-397 | scanning the spelled text of well-formed tokens succeeds and gives back the same tokens, numbered 1, 2, … |
| SymbolTable.FindBelow | hw4compiler.c:432-440 | the backward scan returns the highest index that resolves, or -1 exactly when none does |
| SymbolTable.FindSymbol | hw4compiler.c:431-441 | `find_symbol` returns the most recent unmarked entry with the name and a level at most the query's, or -1 exactly when there is none |
| SymbolTable.DeclarationKeepsNamesDistinct | hw4compiler.c:501-502 | appending a name the lookup does not resolve keeps the live names pairwise distinct |
| SymbolTable.MarkScope | hw4compiler.c:483-487 | exactly the entries from the block's start whose level equals the block's level become marked; nothing else changes |
| SymbolTable.MarkAll | hw4compiler.c:454-456 | every entry is marked and nothing else changes |
| SymbolTable.VarsAtAppend | hw4compiler.c:478 | the count of a level's variables adds up over concatenation |
| SymbolTable.VarsAtSameShape | hw4compiler.c:483-487 | the count depends only on kinds and levels, so marking keeps it |
| Codegen.Advance | hw4compiler.c:399-407 | `get_next_token` moves one token on, and past the end yields the synthetic period |
| Codegen.AdvanceConsumes | hw4compiler.c:399-407 | every advance over a real token shortens the remaining input |
| Codegen.Emit | hw4compiler.c:419-428 | `emit` fails exactly when 500 instructions exist, and otherwise appends one instruction and leaves earlier ones untouched |
| Codegen.Patch | hw4compiler.c:467 | a backpatch changes only the `M` field of one instruction |
| Codegen.DigitPrefix | hw4compiler.c:518 | `atoi` reads exactly the leading digit run |
| Codegen.NumberLexemeBound | hw4compiler.c:518 | a number of at most five digits has a value below 100000 |
| Codegen.Factor | hw4compiler.c:816-849 | a factor consumes input and emits straight-line code: a constant emits exactly `LIT 0 val`, a variable exactly `LOD (level - its level) addr`, a number exactly `LIT 0` of its value; a procedure name gives error 21, an undeclared identifier error 11; a parenthesised expression must be followed by `)`, else error 22; a token that starts no factor gives error 24 |
| Codegen.ArithmeticCode | hw4compiler.c:787-812 | `+` 2, `-` 3, `*` 4, `/` 5 and `mod` 11, each code belonging to exactly one operator |
| Codegen.TermRest | hw4compiler.c:805-813 | after the operand of `*`, `/` or `mod` comes exactly `OPR 0 4`, `OPR 0 5` or `OPR 0 11`; the code stays straight-line; the loop stops at the first token that is not a multiplying operator, and with none it changes nothing |
| Codegen.OperatorStep | hw4compiler.c:787-813 | an operator, its operand and its `OPR` instruction only read tokens and append straight-line code, with the `OPR` right after the operand |
| Codegen.Term | hw4compiler.c:802-814 | a term consumes input, appends only straight-line code and stops before a multiplying operator |
| Codegen.Expression | hw4compiler.c:787-800 | after the term that follows `+` or `-` comes exactly `OPR 0 2` or `OPR 0 3`; the code stays straight-line; the expression stops before `+`/`-`, and without a leading sign it consumes nothing |
| Codegen.Condition | hw4compiler.c:763-785 | a condition appends straight-line code whose last instruction is `OPR 0` with the code of the relation that follows the first expression; no relation there gives error 20 |
| Codegen.Comparison | hw4compiler.c:765-783 | after the first expression: a relation, the second expression and then exactly `OPR 0` of the relation's code; any other token gives error 20 |
| Codegen.RelationCode | hw4compiler.c:773-780 | `=` 8, `<>` 9, `<` 10, `<=` 11, `>` 12, `>=` 13, each code belonging to exactly one relation |
| Codegen.Statement | hw4compiler.c:617-761 | a statement only appends code; a token that starts no statement leaves the state unchanged |
| Codegen.Assignment | hw4compiler.c:617-639 | an undeclared target gives error 11; on success the last instruction is a `STO` to the variable `find_symbol` resolves, with level difference ≥ 0 |
| Codegen.CallStatement | hw4compiler.c:640-660 | a missing identifier gives error 14; on success exactly one `CAL` is appended, to the resolved procedure's address, with level difference ≥ 0 |
| Codegen.Compound | hw4compiler.c:661-678 | `begin … end` only appends code |
| Codegen.StatementList | hw4compiler.c:663-672 | the statement list stops at the first token that is not `;` |
| Codegen.IfStatement | hw4compiler.c:679-714 | an `if` only appends code; the instruction right after the condition's code is `JPC 0 k+1`, where k is the index right after the then-branch's code, and the instruction at k is `JMP 0` to the end of the whole `if` |
| Codegen.IfThen | hw4compiler.c:684-713 | from `then` on: a missing `then` gives error 16; otherwise the JPC placed right after the condition's code jumps just past the JMP that ends the then-branch, and that JMP jumps to the end of the `if` |
| Codegen.IfShape | hw4compiler.c:687-713 | with the condition's code ending at index j, the JPC at j and the then-branch ending at k, the else part leaves `JPC 0 k+1` at j and `JMP 0 end` at k |
| Codegen.ElseBranch | hw4compiler.c:694-713 | the JPC gets the index after the then-branch's JMP; the JMP gets the code length after the else-branch; nothing else earlier changes |
| Codegen.WhileStatement | hw4compiler.c:715-733 | the trailing JMP targets the index saved before the condition, and the loop's own JPC, the instruction right after the condition's code, targets the code length after that JMP |
| Codegen.WhileShape | hw4compiler.c:715-733 | the condition, the JPC placed right after it, the body, the back jump and the patch give the `while` shape: the JPC at the condition's end targets the end of the code |
| Codegen.ReadStatement | hw4compiler.c:734-753 | a missing identifier gives error 1; on success the code is `SYS 0 1` then a `STO` to the resolved variable |
| Codegen.WriteStatement | hw4compiler.c:754-759 | a `write` ends with `SYS 0 2` |
| Codegen.ConstItem | hw4compiler.c:493-524 | error 2 exactly when the name is already visible; otherwise exactly one constant is appended, with address 0 and the literal as its value |
| Codegen.ConstList | hw4compiler.c:492-525 | the list appends at least one constant and stops at the first token that is not `,` |
| Codegen.ConstDecl | hw4compiler.c:490-532 | without `const` nothing changes; otherwise only constants of the current level are appended, and live names stay distinct |
| Codegen.VarItem | hw4compiler.c:539-560 | error 2 exactly when the name is already visible; otherwise exactly one variable is appended, at address count + 2 |
| Codegen.VarList | hw4compiler.c:537-561 | the k-th variable of the list gets address k + 2, and the count grows by the number appended |
| Codegen.VarListRest | hw4compiler.c:555-561 | after the first variable, the rest of the list continues the numbering of addresses from count + 3 and stops before a token that is not `,` |
| Codegen.VarDecl | hw4compiler.c:534-569 | the k-th declared variable gets frame offset k + 2 (3, 4, …), and the returned count is the number appended |
| Codegen.ProcDecl | hw4compiler.c:571-615 | a procedure is appended once at the current level; its address is the index past its closing `OPR 0 0`; its body's entries are marked; a missing name gives error 1, a name already visible error 2, and no semicolon after the name error 5 (the semicolon after the body is `Codegen.ProcReturn`'s) |
| Codegen.ProcDeclBody | hw4compiler.c:597-614 | the body is compiled one level deeper and closed by `OPR 0 0`; it succeeds only past a semicolon after that return; afterwards the entry's address is the index past the return and the body's entries are marked and deeper |
| Codegen.ProcReturn | hw4compiler.c:606-614 | after the procedure's block: `OPR 0 0`, then a semicolon or error 5, then the entry's address becomes the index past the return |
| Codegen.ProcDeclBodyShape | hw4compiler.c:597-614 | the block, the return and the address overwrite together give the declaration's effect on the table |
| Codegen.ProcDeclShape | hw4compiler.c:586-614 | overwriting the procedure's address keeps earlier entries and keeps live names distinct |
| Codegen.ProcDecls | hw4compiler.c:474-476 | procedure declarations repeat while the token is `procedure`, keeping earlier symbols and only appending code |
| Codegen.ProcDeclsPostTrans | hw4compiler.c:474-476 | the effect of successive procedure declarations composes |
| Codegen.EntryCode | hw4compiler.c:465-468 | at level 0 the leading JMP's `M` becomes the current code length; nothing else changes |
| Codegen.Declarations | hw4compiler.c:470-476 | the declarations keep earlier symbols, and the returned count is exactly the number of the block's own variables |
| Codegen.DeclarationsShape | hw4compiler.c:470-476 | constants, then variables, then procedures: the declaration part keeps earlier symbols and the count is the number of variables |
| Codegen.BlockVarCount | hw4compiler.c:470-476 | constants, then variables of the level, then procedure entries: the level's variable count is the variables' number |
| Codegen.MarkScopeKeepsCount | hw4compiler.c:483-487 | marking at block end leaves the count of the level's variables unchanged |
| Codegen.Block | hw4compiler.c:461-488 | a block keeps earlier symbols and only appends code; the instruction right after its declarations' code is `INC 0 3+n`, with n the number of variables declared at the block's own level; it leaves all its own symbols marked |
| Codegen.BlockBody | hw4compiler.c:478-487 | after the declarations, the instruction at the index where their code ends is `INC 0 3+n`, n being the level's variable count; the statement and the marking then give the block's effect |
| Codegen.BlockShape | hw4compiler.c:461-488 | the declarations, the `INC 0 3+n` placed right after their code, the body and the marking together give the block's effect, with n still the level's variable count after marking |
| Codegen.Program | hw4compiler.c:443-459 | on success the last token is a period; the code is 2..500 long, starts with `JMP 0 1` and ends with `SYS 0 3`; every level operand is ≥ 0; all symbols are marked; the instruction right after the main block's declarations is `INC 0 3+n`, n being the number of level-0 variables; a last token that is not a period gives failure |
| Codegen.ProgramShape | hw4compiler.c:443-459 | the leading jump, the main block with its `INC` at a known index, the marking and the halt give the program's shape, the `INC` counting the level-0 variables after marking |
| Pipeline.Compile | hw4compiler.c:886-896 | compilation stops with lexical errors exactly when some line has one; compiled code has the program's shape |
| Pipeline.NoDeclarations | hw4compiler.c:470-476 | a block starting with no declaration keyword declares nothing |
| Pipeline.SmallestProgram | hw4compiler.c:443-488 | `.` compiles to `JMP 0 1; INC 0 3; SYS 0 3` |
| Pipeline.WriteXBody | hw4compiler.c:754-759 | `write x` without a sign emits no load of `x` |
| Pipeline.WriteWithoutLeadingSign | hw4compiler.c:787-800 | `write x.` compiles even though `x` is undeclared, because an expression has no leading term |
| Pipeline.WritePlusXBody | hw4compiler.c:816-821 | `write +x` with `x` undeclared fails with error 11 |
| Pipeline.WriteSignedUndeclared | hw4compiler.c:787-821 | the program `write +x.` fails with error 11 |
| Pipeline.CallTwiceInner | hw4compiler.c:640-660 | a call of p inside p's own body uses p's first address, where the body starts |
| Pipeline.CallTwiceDeclaration | hw4compiler.c:590-614 | after p's declaration its address is overwritten to 4, past its `OPR 0 0` |
| Pipeline.CallTwiceBody | hw4compiler.c:597-614 | from p's semicolon on: the body `call p`, the return, and the address overwritten to 4 |
| Pipeline.CallTwiceOuter | hw4compiler.c:640-660 | the main block's call of p uses the overwritten address 4 |
| Pipeline.CallTwiceDeclarations | hw4compiler.c:470-476 | the whole declaration part of `procedure p; call p; call p.` |
| CInt.TruncDiv | hw4-vm.c:121-124 | C division: the magnitude is the quotient of magnitudes, and the sign follows the operands' signs |
| CInt.TruncMod | hw4-vm.c:149-152 | C's remainder, uniquely: a == b * (a / b) + r with the truncated quotient, smaller than the divisor in magnitude and with the dividend's sign |
| CInt.TruncProduct | hw4-vm.c:121-124 | the divisor times the C quotient is the magnitude product carrying the dividend's sign |
| CInt.TruncationDiffersFromEuclid | hw4-vm.c:121-152 | on -7 and 2, C gives -3 and -1 where Euclidean division gives -4 and 1 |
| CInt.TruncDivOverflow | hw4-vm.c:121-124 | a 32-bit quotient leaves the range exactly for the smallest value divided by -1 |
| Machine.Base | hw4-vm.c:50-57 | following links keeps values in the `int` range; after at least one link the result is a memory cell; the walk faults only on a link outside memory |
| Machine.BaseWalk | hw4-vm.c:50-57 | the C loop computes `Base`: 0 links give bp, and each further link follows `pas[bp]` |
| Machine.BaseCompose | hw4-vm.c:50-57 | following a links and then b more is following a + b |
| Machine.VarAddress | hw4-vm.c:163-171 | the address is `base(bp, l) - m`; it is found exactly when the static-link walk succeeds and that address is inside memory |
| Machine.Inc | hw4-vm.c:95-99 | INC subtracts m from sp and changes nothing else |
| Machine.Return | hw4-vm.c:104-108 | return sets sp to bp + 1, bp to `pas[bp - 1]` and pc to `pas[bp - 2]`, and leaves memory alone |
| Machine.Binary | hw4-vm.c:109-152 | ADD, SUB and MUL give the mathematical result when it fits in 32 bits, else overflow; DIV gives the quotient truncated toward zero (overflowing for `MinInt / -1`) and MOD C's remainder, both faulting on a zero divisor and MOD on `MinInt mod -1`; comparisons give 1 exactly when the relation holds, else 0 |
| Machine.Checked | hw4-vm.c:109-156 | a result is kept exactly when it fits in 32 bits |
| Machine.Arith | hw4-vm.c:109-152 | OPR 1..11 stores `pas[sp+1] op pas[sp]` into `pas[sp+1]`, increments sp, and changes no other cell; it succeeds exactly when both cells are in memory and the operation is defined on C `int`s |
| Machine.Negate | hw4-vm.c:153-156 | OPR 12 negates `pas[sp+1]`, increments sp, and changes no other cell |
| Machine.Operate | hw4-vm.c:103-157 | an OPR code outside 0..12 changes nothing |
| Machine.Load | hw4-vm.c:161-166 | LOD decrements sp and writes the variable's value at the new `pas[sp]`, changing no other cell; it succeeds exactly when the variable's address and sp - 1 are in memory |
| Machine.Store | hw4-vm.c:168-173 | STO copies `pas[sp]` into `pas[base(bp,l) - m]`, increments sp, and changes no other cell; it succeeds exactly when the variable's address and sp are in memory |
| Machine.Call | hw4-vm.c:175-183 | CAL writes `base(bp,l)`, bp and the advanced pc into `pas[sp-1]`, `pas[sp-2]` and `pas[sp-3]`, sets bp to sp - 1 and pc to m, and leaves sp alone; it succeeds exactly when the link walk succeeds and the three cells are in memory |
| Machine.Literal | hw4-vm.c:185-190 | LIT decrements sp and writes m at the new `pas[sp]`, changing no other cell |
| Machine.JumpIfZero | hw4-vm.c:198-204 | JPC pops; pc becomes m when the popped value was 0 and stays unchanged otherwise |
| Machine.System | hw4-vm.c:206-218 | SYS 1 outputs the top and pops, succeeding exactly when sp is in memory; SYS 2 pushes the next input, succeeding exactly when there is input, sp - 1 is in memory and the value is a C `int`; SYS 3 clears the run flag; other modifiers do nothing |
| Machine.Execute | hw4-vm.c:94-222 | JMP sets pc to m; an opcode outside 1..9 does nothing; every address fault names an address outside memory |
| Machine.ExecuteKeepsInvariant | hw4-vm.c:94-222 | executing keeps every cell and register an `int`; input is consumed from the front and output only grows |
| Machine.Step | hw4-vm.c:87-91 | the fetch faults exactly when the three cells at pc are not all in memory |
| Machine.StepKeepsInvariant | hw4-vm.c:85-222 | one loop turn keeps the state one the C program can be in, consuming input from the front and appending at most one output |
| Machine.Run | hw4-vm.c:85 | the loop keeps the invariant, keeps earlier output as a prefix, only consumes input, and does nothing once halted |
| Machine.RunCompose | hw4-vm.c:85 | running a steps and then b more is running a + b |
| Machine.RunAfterHalt | hw4-vm.c:85-222 | once halted, running longer changes nothing |
| Machine.CallThenReturn | hw4-vm.c:104-183 | a CAL and then, with bp and the link cells unchanged, an `OPR 0 0` restore pc to just after the call and restore bp and sp |
| Machine.UnlistedInstruction | hw4-vm.c:94-222 | an opcode outside 1..9, an OPR code outside 0..12 or a SYS modifier outside 1..3 only advances pc by 3 |
| Machine.JumpStep | hw4-vm.c:192-196 | JMP sets pc to m and changes nothing else |
| Machine.HaltStops | hw4-vm.c:216-218 | `SYS 0 3` clears the flag and the loop runs no further |
| Machine.LoadProgram | hw4-vm.c:22-76 | loading succeeds exactly when the triples fit from cell 10 and are `int`s; then instruction i sits at 10 + 3i, every other cell is 0, and the registers are pc 10, bp 499, sp 500 |
| Machine.LoadedFetch | hw4-vm.c:87-91 | at pc 10 + 3i the loop executes the i-th loaded instruction |
| Machine.WriteLiteral | hw4-vm.c:185-218 | `LIT 0 5; SYS 0 1; SYS 0 3` outputs 5 and halts with an empty stack |

## Left out

- File handling, command-line arguments and listings are not modelled: `main`, `fopen`, `rewind`, `print_errors`, `generate_elf_file`, `printState` and the trace output. The lexer takes the text as a string; the machine takes the program as a sequence of instructions.
- Token columns are not kept; nothing depends on them.
- `scanf` and `printf` in `SYS` are an input sequence and an output sequence. A read with no input left faults with `NoInput`; in C the value would be uninitialised.
- There is no theorem that compiled programs run correctly on the machine. The two programs disagree on the encoding:
  - opcode numbers: the compiler's `LIT` is 1 and `INC` is 6, the reverse of the machine's;
  - OPR codes: ADD is 2 in the compiler and 1 in the machine;
  - the SYS read and write codes differ;
  - the compiler's jump targets are instruction indices, the machine's are memory addresses.

  `Codegen.LIT` and `Machine.LIT` therefore have different values.
- Fixed capacities are unbounded sequences: the token array, the symbol table and the error-message buffers. The code limit of 500 is kept.
- Codegen.DigitPrefix: `atoi`'s handling of signs, leading whitespace and overflow is not modelled; a number token has at most five digits, so it cannot overflow.
- Codegen.Program: for an empty token list the model returns `Failure(EmptyTokenList)`; the C final period check (hw4compiler.c:449) would read `tokenList[-1]`, which is undefined behaviour.
- Lexer.Tokenize: the source text is a sequence of Unicode characters, not bytes. A non-ASCII character is therefore one `InvalidSymbol` where C would report one per byte, which changes how soon the 100-message cap is reached, and `SourceLines.ChunkLimit` (255) counts characters rather than bytes.
- Lexer.CommentEnd: after an unterminated comment the C code sets the position one past the line's terminating NUL (hw4compiler.c:211) and goes on scanning whatever stale characters an earlier, longer line left in the 256-byte buffer; it leaves the array only if none of them is NUL. Those stale characters can add further messages to C's error list. The model ends that line's scan at the NUL instead, so it records only the unterminated-comment message for that line.
- Machine.VarAddress: an address whose computation would itself overflow 32 bits is reported as `BadAddress`, like any address outside memory. C leaves both undefined.
- Machine.LoadProgram: a program too long for memory faults instead of writing past the array, which is undefined in C.
- Concrete end-to-end compilation is shown only for programs without nested procedure blocks (`Pipeline.SmallestProgram`, `Pipeline.WriteWithoutLeadingSign`). The procedure example is stated at the level of its declarations and statements.

=== FILE: cint.dfy ===
/** The fragment of C's `int` arithmetic the machine relies on: the 32-bit
    range, and division and remainder that truncate toward zero (Dafny's own
    `/` and `%` are Euclidean). */
module CInt {

  const MinInt: int := -0x8000_0000
  const MaxInt: int :=  0x7FFF_FFFF

  /** The value is representable as a 32-bit signed `int`. */
  predicate Fits(x: int) {
    MinInt <= x <= MaxInt
  }

  function Abs(x: int): nat {
    if x < 0 then -x else x
  }

  /** Euclidean division of naturals, stated for the solver. */
  lemma DivOfNatural(x: int, y: int)
    requires x >= 0 && y > 0
    ensures x / y >= 0 && 0 <= x % y < y && x == y * (x / y) + x % y
  {
  }

  /** C's `a / b`: the quotient rounded toward zero. */
  function TruncDiv(a: int, b: int): (q: int)
    requires b != 0
    ensures Abs(q) == Abs(a) / Abs(b)
    ensures (a < 0) != (b < 0) ==> q <= 0
    ensures (a < 0) == (b < 0) ==> q >= 0
  {
    DivOfNatural(Abs(a), Abs(b));
    var n := Abs(a) / Abs(b);
    if (a < 0) != (b < 0) then -n else n
  }

  /** C's `a % b`: what is left once the truncated quotient is taken away.
      It is smaller than the divisor in magnitude and carries the sign of
      the dividend, which is what distinguishes truncation from Euclidean
      division; together with the identity this pins it down. */
  function TruncMod(a: int, b: int): (r: int)
    requires b != 0
    ensures a == b * TruncDiv(a, b) + r
    ensures Abs(r) < Abs(b)
    ensures a >= 0 ==> r >= 0
    ensures a <= 0 ==> r <= 0
  {
    DivOfNatural(Abs(a), Abs(b));
    TruncProduct(a, b);
    a - b * TruncDiv(a, b)
  }

  /** b * TruncDiv(a, b) is Abs(b) times the natural quotient, with the sign
      of a. */
  lemma TruncProduct(a: int, b: int)
    requires b != 0
    ensures b * TruncDiv(a, b) == if a >= 0 then Abs(b) * (Abs(a) / Abs(b)) else -(Abs(b) * (Abs(a) / Abs(b)))
  {
    var n := Abs(a) / Abs(b);
    if b < 0 {
      NegateFactors(b, n);
    }
  }

  lemma NegateFactors(x: int, y: int)
    ensures x * -y == -x * y
  {
  }

  /** On a negative dividend the two divisions differ. */
  lemma TruncationDiffersFromEuclid()
    ensures TruncDiv(-7, 2) == -3 && (-7) / 2 == -4
    ensures TruncMod(-7, 2) == -1 && (-7) % 2 == 1
  {
  }

  /** The only 32-bit quotient that leaves the range: the smallest value
      divided by minus one. */
  lemma TruncDivOverflow(a: int, b: int)
    requires Fits(a) && Fits(b) && b != 0
    ensures !Fits(TruncDiv(a, b)) <==> (a == MinInt && b == -1)
  {
    var q := Abs(a) / Abs(b);
    if Abs(b) >= 2 {
      assert q * 2 <= q * Abs(b) <= Abs(a);
    }
  }
}

=== FILE: codegen.dfy ===
/** The single-pass recursive-descent parser and code generator
    (hw4compiler.c, `program` through `factor`). Each nonterminal is a pure
    function that threads the compiler state: the token list and the
    position in it, the current lexical level, the symbol table and the code
    emitted so far. A call of `error(n)` ends compilation, so the first error
    is the result. */
module Codegen {

  import opened Results
  import opened Tokens
  import opened SymbolTable
  import Lexer

  /** Capacity of the code array. */
  const CodeSize: nat := 500

  /** The compiler's opcode numbers. */
  const LIT: int := 1
  const OPR: int := 2
  const LOD: int := 3
  const STO: int := 4
  const CAL: int := 5
  const INC: int := 6
  const JMP: int := 7
  const JPC: int := 8
  const SYS: int := 9

  datatype Instr = Instr(op: int, l: int, m: int)

  /** Why compilation stopped: `error(n)`, a full code array, or a final
      period check on an empty token list. */
  datatype CompileError = Syntax(number: int) | ProgramTooLong | EmptyTokenList

  datatype Compiler = Compiler(toks: seq<Token>, pos: nat, level: nat, syms: seq<Symbol>, code: seq<Instr>)

  /** What the token reader yields once the list is used up. */
  const EndToken: Token := Token(Period, "", -1)

  /** The current token. */
  function Cur(st: Compiler): Token {
    if st.pos < |st.toks| then st.toks[st.pos] else EndToken
  }

  /** `get_next_token`: move on, staying put at the end of the list. */
  function Advance(st: Compiler): (r: Compiler)
    ensures r.toks == st.toks && r.level == st.level && r.syms == st.syms && r.code == st.code
    ensures st.pos < |st.toks| ==> r.pos == st.pos + 1
    ensures st.pos >= |st.toks| ==> r.pos == st.pos && Cur(r) == EndToken
  {
    if st.pos < |st.toks| then st.(pos := st.pos + 1) else st
  }

  /** Tokens not yet read. */
  function Remaining(st: Compiler): nat {
    if st.pos < |st.toks| then |st.toks| - st.pos else 0
  }

  /** Moving past a real token uses it up; at the end nothing changes. */
  lemma AdvanceConsumes(st: Compiler)
    ensures Cur(st) != EndToken ==> Remaining(Advance(st)) == Remaining(st) - 1
    ensures Cur(st) == EndToken ==> Remaining(Advance(st)) <= Remaining(st)
  {
  }

  /** `emit`: append one instruction, failing when the array is full. */
  function Emit(st: Compiler, op: int, l: int, m: int): (r: Result<Compiler, CompileError>)
    ensures r.Failure? <==> |st.code| >= CodeSize
    ensures r.Failure? ==> r.error == ProgramTooLong
    ensures r.Success? ==> r.value == st.(code := st.code + [Instr(op, l, m)])
  {
    if |st.code| >= CodeSize then Failure(ProgramTooLong)
    else Success(st.(code := st.code + [Instr(op, l, m)]))
  }

  /** A later store into an instruction's address field (backpatching). */
  function Patch(code: seq<Instr>, idx: nat, m: int): (r: seq<Instr>)
    requires idx < |code|
    ensures |r| == |code| && r[idx] == code[idx].(m := m)
    ensures forall i :: 0 <= i < |code| && i != idx ==> r[i] == code[i]
  {
    code[idx := code[idx].(m := m)]
  }

  /** The value of a string of decimal digits. */
  function DigitsValue(s: string): nat
    decreases |s|
  {
    if s == [] then 0
    else DigitsValue(s[..|s| - 1]) * 10 + (if Lexer.IsDigit(s[|s| - 1]) then (s[|s| - 1] - '0') as nat else 0)
  }

  /** Digits at the front of s. */
  function DigitPrefix(s: string): (n: nat)
    ensures n <= |s|
    ensures forall j :: 0 <= j < n ==> Lexer.IsDigit(s[j])
    ensures n < |s| ==> !Lexer.IsDigit(s[n])
  {
    if s == [] || !Lexer.IsDigit(s[0]) then 0 else 1 + DigitPrefix(s[1..])
  }

  /** `atoi` on a number lexeme: the value of its leading digits. */
  function Atoi(s: string): nat {
    DigitsValue(s[..DigitPrefix(s)])
  }

  /** A string of k digits stands for less than 10^k. */
  lemma {:induction false} DigitsValueBound(s: string, bound: nat)
    requires bound == Pow10(|s|)
    ensures DigitsValue(s) < bound
    decreases |s|
  {
    if s != [] {
      DigitsValueBound(s[..|s| - 1], Pow10(|s| - 1));
    }
  }

  function Pow10(k: nat): nat {
    if k == 0 then 1 else 10 * Pow10(k - 1)
  }

  /** Number lexemes the scanner accepts (at most five digits) denote
      values below 100000, so a constant always fits in an instruction. */
  lemma NumberLexemeBound(s: string)
    requires |s| <= Lexer.MaxNumLen
    ensures Atoi(s) < 100000
  {
    var d := s[..DigitPrefix(s)];
    DigitsValueBound(d, Pow10(|d|));
    PowMonotone(|d|, 5);
  }

  lemma {:induction false} PowMonotone(a: nat, b: nat)
    requires a <= b
    ensures Pow10(a) <= Pow10(b)
    decreases b
  {
    if a < b {
      PowMonotone(a, b - 1);
    }
  }

  // ---------------------------------------------------------------------
  // How a parse step may change the state.

  /** Same tokens and level, and no token given back. */
  predicate Continues(st: Compiler, st2: Compiler) {
    st2.toks == st.toks && st2.level == st.level && Remaining(st2) <= Remaining(st)
  }

  /** code2 keeps every instruction of code, and every instruction after
      them carries a non-negative level difference. */
  predicate Extends(code: seq<Instr>, code2: seq<Instr>) {
    |code| <= |code2| &&
    (forall i :: 0 <= i < |code| ==> code2[i] == code[i]) &&
    (forall i :: |code| <= i < |code2| ==> code2[i].l >= 0)
  }

  /** A step that only reads tokens and appends code. */
  predicate AddsCode(st: Compiler, st2: Compiler) {
    Continues(st, st2) && st2.syms == st.syms && Extends(st.code, st2.code)
  }

  function Last(code: seq<Instr>): Instr
    requires code != []
  {
    code[|code| - 1]
  }

  // ---------------------------------------------------------------------
  // Expressions. The decreases pairs are (tokens left, rank of the
  // nonterminal), so a call on the same position must go to a lower rank.

  /** One instruction of expression code: a constant or variable push, or
      an OPR 2..13 that combines the two topmost values. */
  predicate Evaluates(i: Instr) {
    i.op == LIT || i.op == LOD || (i.op == OPR && i.l == 0 && 2 <= i.m <= 13)
  }

  /** From index lo on, the code only evaluates: no store, jump, call,
      return or system call. */
  predicate StraightLine(code: seq<Instr>, lo: nat) {
    forall i :: lo <= i < |code| ==> Evaluates(code[i])
  }

  /** `factor`: an identifier, a number or a parenthesised expression. */
  function Factor(st: Compiler): (r: Result<Compiler, CompileError>)
    decreases Remaining(st), 0
    ensures r.Success? ==> AddsCode(st, r.value) && Remaining(r.value) < Remaining(st)
    ensures r.Success? ==> StraightLine(r.value.code, |st.code|)
    ensures Cur(st).kind == Ident && !Visible(st.syms, Cur(st).lexeme, st.level) ==> r == Failure(Syntax(11))
    ensures Cur(st).kind == Ident && Visible(st.syms, Cur(st).lexeme, st.level) ==>
              var s := st.syms[FindSymbol(st.syms, Cur(st).lexeme, st.level)];
              (s.kind == ConstSym && r.Success? ==> r.value.code == st.code + [Instr(LIT, 0, s.val)]) &&
              (s.kind == VarSym && r.Success? ==> r.value.code == st.code + [Instr(LOD, st.level - s.level, s.addr)]) &&
              (s.kind == ProcSym ==> r == Failure(Syntax(21)))
    ensures Cur(st).kind == Number && r.Success? ==> r.value.code == st.code + [Instr(LIT, 0, Atoi(Cur(st).lexeme))]
    ensures Cur(st).kind == LParen && Expression(Advance(st)).Success? ==>
              var e := Expression(Advance(st)).value;
              (Cur(e).kind == RParen ==> r == Success(Advance(e))) &&
              (Cur(e).kind != RParen ==> r == Failure(Syntax(22)))
    ensures Cur(st).kind !in {Ident, Number, LParen} ==> r == Failure(Syntax(24))
  {
    var t := Cur(st);
    if t.kind == Ident then
      var idx := FindSymbol(st.syms, t.lexeme, st.level);
      if idx == -1 then Failure(Syntax(11))
      else
        var s := st.syms[idx];
        var st1 :- if s.kind == ConstSym then Emit(st, LIT, 0, s.val)
                   else if s.kind == VarSym then Emit(st, LOD, st.level - s.level, s.addr)
                   else Failure(Syntax(21));
        Success(Advance(st1))
    else if t.kind == Number then
      var st1 :- Emit(st, LIT, 0, Atoi(t.lexeme));
      Success(Advance(st1))
    else if t.kind == LParen then
      AdvanceConsumes(st);
      var st1 :- Expression(Advance(st));
      if Cur(st1).kind != RParen then Failure(Syntax(22))
      else Success(Advance(st1))
    else Failure(Syntax(24))
  }

  /** The OPR modifier emitted after the second operand of an arithmetic
      operator; `mod` gets 11, the same modifier as `<=`. */
  function ArithmeticCode(k: TokenKind): (m: int)
    requires k in {Plus, Minus, Times, Slash, Mod}
    ensures k == Plus <==> m == 2
    ensures k == Minus <==> m == 3
    ensures k == Times <==> m == 4
    ensures k == Slash <==> m == 5
    ensures k == Mod <==> m == 11
  {
    match k
    case Plus => 2
    case Minus => 3
    case Times => 4
    case Slash => 5
    case Mod => 11
  }

  /** The `{("*" | "/" | "mod") factor}` loop of `term`. */
  function TermRest(st: Compiler): (r: Result<Compiler, CompileError>)
    decreases Remaining(st), 1
    ensures r.Success? ==> AddsCode(st, r.value) && Cur(r.value).kind !in {Times, Slash, Mod}
    ensures r.Success? ==> StraightLine(r.value.code, |st.code|)
    ensures Cur(st).kind !in {Times, Slash, Mod} ==> r == Success(st)
    ensures Cur(st).kind in {Times, Slash, Mod} && r.Success? ==>
              var f := Factor(Advance(st));
              f.Success? && |f.value.code| < |r.value.code| &&
              r.value.code[|f.value.code|] == Instr(OPR, 0, ArithmeticCode(Cur(st).kind))
  {
    var k := Cur(st).kind;
    if k in {Times, Slash, Mod} then
      AdvanceConsumes(st);
      var st1 :- Factor(Advance(st));
      var st2 :- Emit(st1, OPR, 0, ArithmeticCode(k));
      var st3 :- TermRest(st2);
      OperatorStep(st, st1, Instr(OPR, 0, ArithmeticCode(k)), st3);
      Success(st3)
    else Success(st)
  }

  /** An operator token, its operand's code, the operator's instruction and
      then further code only read tokens and append code, and straight-line
      pieces make a straight-line whole. */
  lemma OperatorStep(st: Compiler, st1: Compiler, i: Instr, st3: Compiler)
    requires AddsCode(Advance(st), st1) && Evaluates(i) && i.l >= 0
    requires StraightLine(st1.code, |st.code|)
    requires AddsCode(st1.(code := st1.code + [i]), st3)
    requires StraightLine(st3.code, |st1.code| + 1)
    ensures AddsCode(st, st3) && StraightLine(st3.code, |st.code|)
    ensures |st1.code| < |st3.code| && st3.code[|st1.code|] == i
  {
    AdvanceConsumes(st);
  }

  /** `term`: a factor followed by multiplying operators. */
  function Term(st: Compiler): (r: Result<Compiler, CompileError>)
    decreases Remaining(st), 2
    ensures r.Success? ==> AddsCode(st, r.value) && Remaining(r.value) < Remaining(st)
    ensures r.Success? ==> Cur(r.value).kind !in {Times, Slash, Mod}
    ensures r.Success? ==> StraightLine(r.value.code, |st.code|)
  {
    var st1 :- Factor(st);
    TermRest(st1)
  }

  /** `expression`: a possibly empty run of `("+" | "-") term`; there is no
      leading term. */
  function Expression(st: Compiler): (r: Result<Compiler, CompileError>)
    decreases Remaining(st), 3
    ensures r.Success? ==> AddsCode(st, r.value) && Cur(r.value).kind !in {Plus, Minus}
    ensures r.Success? ==> StraightLine(r.value.code, |st.code|)
    ensures Cur(st).kind !in {Plus, Minus} ==> r == Success(st)
    ensures Cur(st).kind in {Plus, Minus} && r.Success? ==>
              var t := Term(Advance(st));
              t.Success? && |t.value.code| < |r.value.code| &&
              r.value.code[|t.value.code|] == Instr(OPR, 0, ArithmeticCode(Cur(st).kind))
  {
    var k := Cur(st).kind;
    if k == Plus || k == Minus then
      AdvanceConsumes(st);
      var st1 :- Term(Advance(st));
      var st2 :- Emit(st1, OPR, 0, ArithmeticCode(k));
      var st3 :- Expression(st2);
      OperatorStep(st, st1, Instr(OPR, 0, ArithmeticCode(k)), st3);
      Success(st3)
    else Success(st)
  }

  predicate IsRelation(k: TokenKind) {
    k in {Eql, Neq, Lss, Leq, Gtr, Geq}
  }

  /** The OPR modifier the compiler emits for each relation. */
  function RelationCode(k: TokenKind): (m: int)
    requires IsRelation(k)
    ensures 8 <= m <= 13
    ensures k == Eql <==> m == 8
    ensures k == Neq <==> m == 9
    ensures k == Lss <==> m == 10
    ensures k == Leq <==> m == 11
    ensures k == Gtr <==> m == 12
    ensures k == Geq <==> m == 13
  {
    match k
    case Eql => 8
    case Neq => 9
    case Lss => 10
    case Leq => 11
    case Gtr => 12
    case Geq => 13
  }

  /** `condition`: expression, relation, expression, then the comparison. */
  function Condition(st: Compiler): (r: Result<Compiler, CompileError>)
    decreases Remaining(st), 5
    ensures r.Success? ==> AddsCode(st, r.value) && |r.value.code| > |st.code|
    ensures r.Success? ==> StraightLine(r.value.code, |st.code|)
    ensures r.Success? ==> Last(r.value.code).op == OPR && 8 <= Last(r.value.code).m <= 13
    ensures r.Success? ==>
              var e := Expression(st);
              e.Success? && IsRelation(Cur(e.value).kind) &&
              Last(r.value.code) == Instr(OPR, 0, RelationCode(Cur(e.value).kind))
    ensures Expression(st).Success? && !IsRelation(Cur(Expression(st).value).kind) ==> r == Failure(Syntax(20))
    ensures Cur(st).kind !in {Plus, Minus} && !IsRelation(Cur(st).kind) ==> r == Failure(Syntax(20))
  {
    var st1 :- Expression(st);
    Comparison(st1)
  }

  /** The rest of `condition` once the left expression is compiled. */
  function Comparison(st: Compiler): (r: Result<Compiler, CompileError>)
    decreases Remaining(st), 4
    ensures r.Success? ==> AddsCode(st, r.value) && |r.value.code| > |st.code|
    ensures r.Success? ==> StraightLine(r.value.code, |st.code|)
    ensures r.Success? ==> IsRelation(Cur(st).kind) && Last(r.value.code) == Instr(OPR, 0, RelationCode(Cur(st).kind))
    ensures !IsRelation(Cur(st).kind) ==> r == Failure(Syntax(20))
  {
    var k := Cur(st).kind;
    if IsRelation(k) then
      AdvanceConsumes(st);
      var st2 :- Expression(Advance(st));
      Emit(st2, OPR, 0, RelationCode(k))
    else Failure(Syntax(20))
  }

  // ---------------------------------------------------------------------
  // Statements.

  /** `statement`: dispatch on the first token; anything else is the empty
      statement. */
  function Statement(st: Compiler): (r: Result<Compiler, CompileError>)
    decreases Remaining(st), 6
    ensures r.Success? ==> AddsCode(st, r.value)
    ensures Cur(st).kind !in {Ident, Call, Begin, If, While, Read, Write} ==> r == Success(st)
  {
    match Cur(st).kind
    case Ident => Assignment(st)
    case Call => CallStatement(st)
    case Begin => Compound(st)
    case If => IfStatement(st)
    case While => WhileStatement(st)
    case Read => ReadStatement(st)
    case Write => WriteStatement(st)
    case _ => Success(st)
  }

  /** `ident := expression`, stored into the innermost visible variable. */
  function Assignment(st: Compiler): (r: Result<Compiler, CompileError>)
    requires Cur(st).kind == Ident
    decreases Remaining(st), 5
    ensures r.Success? ==> AddsCode(st, r.value) && |r.value.code| > |st.code|
    ensures !Visible(st.syms, Cur(st).lexeme, st.level) ==> r == Failure(Syntax(11))
    ensures r.Success? ==>
              var i := FindSymbol(st.syms, Cur(st).lexeme, st.level);
              0 <= i && st.syms[i].kind == VarSym &&
              Last(r.value.code) == Instr(STO, st.level - st.syms[i].level, st.syms[i].addr)
  {
    var idx := FindSymbol(st.syms, Cur(st).lexeme, st.level);
    if idx == -1 then Failure(Syntax(11))
    else if st.syms[idx].kind != VarSym then Failure(Syntax(12))
    else
      var st1 := Advance(st);
      if Cur(st1).kind != Becomes then Failure(Syntax(13))
      else
        var st2 :- Expression(Advance(st1));
        Emit(st2, STO, st.level - st.syms[idx].level, st.syms[idx].addr)
  }

  /** `call ident`, to the innermost visible procedure. */
  function CallStatement(st: Compiler): (r: Result<Compiler, CompileError>)
    requires Cur(st).kind == Call
    decreases Remaining(st), 5
    ensures r.Success? ==> AddsCode(st, r.value) && |r.value.code| == |st.code| + 1
    ensures r.Success? ==>
              var name := Cur(Advance(st)).lexeme;
              var i := FindSymbol(st.syms, name, st.level);
              0 <= i && st.syms[i].kind == ProcSym &&
              Last(r.value.code) == Instr(CAL, st.level - st.syms[i].level, st.syms[i].addr)
    ensures Cur(Advance(st)).kind != Ident ==> r == Failure(Syntax(14))
  {
    var st1 := Advance(st);
    if Cur(st1).kind != Ident then Failure(Syntax(14))
    else
      var idx := FindSymbol(st.syms, Cur(st1).lexeme, st.level);
      if idx == -1 then Failure(Syntax(11))
      else if st.syms[idx].kind != ProcSym then Failure(Syntax(15))
      else
        var st2 :- Emit(st1, CAL, st.level - st.syms[idx].level, st.syms[idx].addr);
        Success(Advance(st2))
  }

  /** `begin statement {";" [statement]} end`. */
  function Compound(st: Compiler): (r: Result<Compiler, CompileError>)
    requires Cur(st).kind == Begin
    decreases Remaining(st), 5
    ensures r.Success? ==> AddsCode(st, r.value)
  {
    var st1 :- Statement(Advance(st));
    var st2 :- StatementList(st1);
    if Cur(st2).kind != End then Failure(Syntax(9))
    else Success(Advance(st2))
  }

  /** The `{";" [statement]}` loop of a compound statement. */
  function StatementList(st: Compiler): (r: Result<Compiler, CompileError>)
    decreases Remaining(st), 5
    ensures r.Success? ==> AddsCode(st, r.value) && Cur(r.value).kind != Semicolon
  {
    if Cur(st).kind == Semicolon then
      var st1 := Advance(st);
      var st2 :- if Cur(st1).kind != End then Statement(st1) else Success(st1);
      StatementList(st2)
    else Success(st)
  }

  /** The jumps of an `if` whose conditional jump sits at index j and whose
      then branch ends at index k: the conditional jump goes to the
      instruction after the jump at k, and that jump goes to the end of the
      code. */
  predicate IfJumpsAt(code: seq<Instr>, j: nat, k: nat) {
    j < k < |code| && code[j] == Instr(JPC, 0, k + 1) && code[k] == Instr(JMP, 0, |code|)
  }

  /** `if condition then statement else statement fi`: the conditional jump
      follows the condition's code and is patched to the instruction after
      the jump that ends the then branch; that jump is patched to the end of
      the else branch. */
  function IfStatement(st: Compiler): (r: Result<Compiler, CompileError>)
    requires Cur(st).kind == If
    decreases Remaining(st), 5
    ensures r.Success? ==> AddsCode(st, r.value)
    ensures r.Success? ==>
              var c := Condition(Advance(st));
              c.Success? && Cur(c.value).kind == Then && |c.value.code| > |st.code| &&
              (var t := Statement(Advance(c.value.(code := c.value.code + [Instr(JPC, 0, 0)])));
               t.Success? && IfJumpsAt(r.value.code, |c.value.code|, |t.value.code|))
  {
    AdvanceConsumes(st);
    var st1 :- Condition(Advance(st));
    var st4 :- IfThen(st1);
    AfterKeyword(st, st1, st4);
    Success(st4)
  }

  /** A keyword, then a step from the state after it, then another step:
      together they only read tokens and append code. */
  lemma AfterKeyword(st: Compiler, st1: Compiler, st2: Compiler)
    requires Cur(st) != EndToken && AddsCode(Advance(st), st1) && AddsCode(st1, st2)
    ensures AddsCode(st, st2) && Remaining(st1) < Remaining(st)
  {
    AdvanceConsumes(st);
  }

  /** The `if` from `then` on, once the condition's code ends the code of
      st: the conditional jump, the then branch and the else part. */
  function IfThen(st: Compiler): (r: Result<Compiler, CompileError>)
    decreases Remaining(st), 5
    ensures r.Success? ==> AddsCode(st, r.value)
    ensures r.Success? ==>
              Cur(st).kind == Then &&
              (var t := Statement(Advance(st.(code := st.code + [Instr(JPC, 0, 0)])));
               t.Success? && IfJumpsAt(r.value.code, |st.code|, |t.value.code|))
    ensures Cur(st).kind != Then ==> r == Failure(Syntax(16))
  {
    if Cur(st).kind != Then then Failure(Syntax(16))
    else
      AdvanceConsumes(st);
      var st2 :- Emit(st, JPC, 0, 0);
      var st3 :- Statement(Advance(st2));
      if Cur(st3).kind != Else then Failure(Syntax(28))
      else
        var st4 :- ElseBranch(st3, |st.code|);
        IfShape(st, st2, st3, st4);
        Success(st4)
  }

  /** What the else part does to the state st when the conditional jump
      sits at index jpc: it appends the jump over the else branch (at the
      old end of the code) and the branch, patches the conditional jump to
      the instruction after that jump, and patches the jump to the new end
      of the code. */
  predicate ElsePatched(st: Compiler, jpc: nat, st2: Compiler) {
    Continues(st, st2) && st2.syms == st.syms && |st2.code| > |st.code| && jpc < |st.code| &&
    (forall i :: 0 <= i < |st.code| && i != jpc ==> st2.code[i] == st.code[i]) &&
    st2.code[jpc] == st.code[jpc].(m := |st.code| + 1) &&
    st2.code[|st.code|] == Instr(JMP, 0, |st2.code|) &&
    (forall i :: |st.code| <= i < |st2.code| ==> st2.code[i].l >= 0)
  }

  /** The parts of an `if` statement from `then` on together give its
      effect. */
  lemma IfShape(st: Compiler, st2: Compiler, st3: Compiler, st4: Compiler)
    requires st2 == st.(code := st.code + [Instr(JPC, 0, 0)])
    requires AddsCode(Advance(st2), st3)
    requires ElsePatched(st3, |st.code|, st4)
    ensures AddsCode(st, st4)
    ensures IfJumpsAt(st4.code, |st.code|, |st3.code|)
  {
    assert st4.code[|st.code|] == Instr(JPC, 0, |st3.code| + 1);
  }

  /** From `else` on: the jump over the else branch, the patch of the
      conditional jump at index jpc, the else branch, `fi`, and the patch of
      the jump. */
  function ElseBranch(st: Compiler, jpc: nat): (r: Result<Compiler, CompileError>)
    requires Cur(st).kind == Else && jpc < |st.code|
    decreases Remaining(st), 5
    ensures r.Success? ==> ElsePatched(st, jpc, r.value)
  {
    var jmp := |st.code|;
    var st1 :- Emit(st, JMP, 0, 0);
    var st2 :- Statement(Advance(st1.(code := Patch(st1.code, jpc, |st1.code|))));
    if Cur(st2).kind != Fi then Failure(Syntax(29))
    else
      var st3 := Advance(st2);
      Success(st3.(code := Patch(st3.code, jmp, |st3.code|)))
  }

  /** `while condition do statement`: the trailing jump goes back to the
      condition's first instruction, and the conditional jump past it. */
  function WhileStatement(st: Compiler): (r: Result<Compiler, CompileError>)
    requires Cur(st).kind == While
    decreases Remaining(st), 5
    ensures r.Success? ==> AddsCode(st, r.value) && |r.value.code| >= |st.code| + 3
    ensures r.Success? ==> Last(r.value.code) == Instr(JMP, 0, |st.code|)
    ensures r.Success? ==>
              var c := Condition(Advance(st));
              c.Success? && |st.code| < |c.value.code| < |r.value.code| - 1 &&
              r.value.code[|c.value.code|] == Instr(JPC, 0, |r.value.code|)
  {
    AdvanceConsumes(st);
    var st1 :- Condition(Advance(st));
    if Cur(st1).kind != Do then Failure(Syntax(18))
    else
      var st2 :- Emit(st1, JPC, 0, 0);
      var st3 :- Statement(Advance(st2));
      var st4 :- Emit(st3, JMP, 0, |st.code|);
      var code := Patch(st4.code, |st1.code|, |st4.code|);
      WhileShape(st, st1, st2, st3, st4, code);
      Success(st4.(code := code))
  }

  /** The parts of a `while` statement together give its effect. */
  lemma WhileShape(st: Compiler, st1: Compiler, st2: Compiler, st3: Compiler, st4: Compiler, code: seq<Instr>)
    requires AddsCode(Advance(st), st1) && |st1.code| > |st.code|
    requires st2 == st1.(code := st1.code + [Instr(JPC, 0, 0)])
    requires AddsCode(Advance(st2), st3)
    requires st4 == st3.(code := st3.code + [Instr(JMP, 0, |st.code|)])
    requires code == Patch(st4.code, |st1.code|, |st4.code|)
    ensures AddsCode(st, st4.(code := code)) && |code| >= |st.code| + 3
    ensures Last(code) == Instr(JMP, 0, |st.code|)
    ensures |st.code| < |st1.code| < |code| - 1 && code[|st1.code|] == Instr(JPC, 0, |code|)
  {
  }

  /** `read ident`: an input instruction, then a store into the innermost
      visible variable. */
  function ReadStatement(st: Compiler): (r: Result<Compiler, CompileError>)
    requires Cur(st).kind == Read
    decreases Remaining(st), 5
    ensures r.Success? ==> AddsCode(st, r.value) && |r.value.code| == |st.code| + 2
    ensures r.Success? ==>
              var i := FindSymbol(st.syms, Cur(Advance(st)).lexeme, st.level);
              0 <= i && st.syms[i].kind == VarSym &&
              r.value.code[|st.code|] == Instr(SYS, 0, 1) &&
              r.value.code[|st.code| + 1] == Instr(STO, st.level - st.syms[i].level, st.syms[i].addr)
    ensures Cur(Advance(st)).kind != Ident ==> r == Failure(Syntax(1))
  {
    var st1 := Advance(st);
    if Cur(st1).kind != Ident then Failure(Syntax(1))
    else
      var idx := FindSymbol(st.syms, Cur(st1).lexeme, st.level);
      if idx == -1 then Failure(Syntax(11))
      else if st.syms[idx].kind != VarSym then Failure(Syntax(12))
      else
        var st2 :- Emit(st1, SYS, 0, 1);
        var st3 :- Emit(st2, STO, st.level - st.syms[idx].level, st.syms[idx].addr);
        Success(Advance(st3))
  }

  /** `write expression`: the expression, then an output instruction. */
  function WriteStatement(st: Compiler): (r: Result<Compiler, CompileError>)
    requires Cur(st).kind == Write
    decreases Remaining(st), 5
    ensures r.Success? ==> AddsCode(st, r.value) && |r.value.code| > |st.code|
    ensures r.Success? ==> Last(r.value.code) == Instr(SYS, 0, 2)
  {
    var st1 :- Expression(Advance(st));
    Emit(st1, SYS, 0, 2)
  }

  // ---------------------------------------------------------------------
  // Declarations and blocks.

  /** st2 keeps st's code and symbols and appends only entries of kind k
      declared at st's level and still in scope; names in scope stay
      distinct. */
  predicate AppendsDecls(st: Compiler, st2: Compiler, k: SymbolKind) {
    Continues(st, st2) && st2.code == st.code && |st.syms| <= |st2.syms| &&
    (forall i :: 0 <= i < |st.syms| ==> st2.syms[i] == st.syms[i]) &&
    (forall i :: |st.syms| <= i < |st2.syms| ==>
       st2.syms[i].kind == k && st2.syms[i].level == st.level && !st2.syms[i].marked) &&
    (ScopeInvariant(st.syms, st.level) ==> ScopeInvariant(st2.syms, st.level))
  }

  /** One `ident = number` of a const declaration. */
  function ConstItem(st: Compiler): (r: Result<Compiler, CompileError>)
    decreases Remaining(st), 6
    ensures r.Success? ==> AppendsDecls(st, r.value, ConstSym) && Remaining(r.value) < Remaining(st)
    ensures r.Success? ==>
              r.value.syms == st.syms + [Symbol(ConstSym, Cur(st).lexeme, Atoi(Cur(Advance(Advance(st))).lexeme), st.level, 0, false)]
    ensures Cur(st).kind != Ident ==> r == Failure(Syntax(1))
    ensures Cur(st).kind == Ident ==> (r == Failure(Syntax(2)) <==> Visible(st.syms, Cur(st).lexeme, st.level))
  {
    if Cur(st).kind != Ident then Failure(Syntax(1))
    else
      var name := Cur(st).lexeme;
      if FindSymbol(st.syms, name, st.level) != -1 then Failure(Syntax(2))
      else
        var st1 := Advance(st);
        if Cur(st1).kind != Eql then Failure(Syntax(3))
        else
          var st2 := Advance(st1);
          if Cur(st2).kind != Number then Failure(Syntax(4))
          else
            var s := Symbol(ConstSym, name, Atoi(Cur(st2).lexeme), st.level, 0, false);
            DeclarationKeepsNamesDistinct(st.syms, s, st.level);
            Success(Advance(st2.(syms := st.syms + [s])))
  }

  /** The `ident = number {"," ident = number}` list after `const`. */
  function ConstList(st: Compiler): (r: Result<Compiler, CompileError>)
    decreases Remaining(st), 7
    ensures r.Success? ==> AppendsDecls(st, r.value, ConstSym) && |r.value.syms| > |st.syms|
    ensures r.Success? ==> Cur(r.value).kind != Comma
  {
    var st1 :- ConstItem(Advance(st));
    if Cur(st1).kind == Comma then ConstList(st1) else Success(st1)
  }

  /** `const_declaration`. */
  function ConstDecl(st: Compiler): (r: Result<Compiler, CompileError>)
    decreases Remaining(st), 8
    ensures r.Success? ==> AppendsDecls(st, r.value, ConstSym)
    ensures Cur(st).kind != Const ==> r == Success(st)
  {
    if Cur(st).kind != Const then Success(st)
    else
      var st1 :- ConstList(st);
      if Cur(st1).kind != Semicolon then Failure(Syntax(5))
      else Success(Advance(st1))
  }

  /** One identifier of a var declaration, the n-th of its list, placed at
      frame offset n + 2. */
  function VarItem(st: Compiler, n: nat): (r: Result<Compiler, CompileError>)
    decreases Remaining(st), 6
    ensures r.Success? ==> AppendsDecls(st, r.value, VarSym) && Remaining(r.value) < Remaining(st)
    ensures r.Success? ==> r.value.syms == st.syms + [Symbol(VarSym, Cur(st).lexeme, 0, st.level, n + 2, false)]
    ensures Cur(st).kind != Ident ==> r == Failure(Syntax(1))
    ensures Cur(st).kind == Ident ==> (r == Failure(Syntax(2)) <==> Visible(st.syms, Cur(st).lexeme, st.level))
  {
    if Cur(st).kind != Ident then Failure(Syntax(1))
    else
      var name := Cur(st).lexeme;
      if FindSymbol(st.syms, name, st.level) != -1 then Failure(Syntax(2))
      else
        var s := Symbol(VarSym, name, 0, st.level, n + 2, false);
        DeclarationKeepsNamesDistinct(st.syms, s, st.level);
        Success(Advance(st.(syms := st.syms + [s])))
  }

  /** The identifier list after `var`; `count` variables precede it. The
      result carries the new count. */
  function VarList(st: Compiler, count: nat): (r: Result<(Compiler, nat), CompileError>)
    decreases Remaining(st), 7
    ensures r.Success? ==> AppendsDecls(st, r.value.0, VarSym) && r.value.1 > count
    ensures r.Success? ==> |r.value.0.syms| == |st.syms| + (r.value.1 - count)
    ensures r.Success? ==>
              forall i :: |st.syms| <= i < |r.value.0.syms| ==> r.value.0.syms[i].addr == count + (i - |st.syms|) + 3
    ensures r.Success? ==> Cur(r.value.0).kind != Comma
  {
    var st1 :- VarItem(Advance(st), count + 1);
    VarListFirst(st, count, st1);
    VarListRest(st, count, st1)
  }

  /** The list once its first variable has been declared in st1. */
  function VarListRest(st: Compiler, count: nat, st1: Compiler): (r: Result<(Compiler, nat), CompileError>)
    requires AppendsDecls(st, st1, VarSym) && Remaining(st1) < Remaining(st)
    requires |st1.syms| == |st.syms| + 1 && st1.syms[|st.syms|].addr == count + 3
    decreases Remaining(st), 6
    ensures r.Success? ==> AppendsDecls(st, r.value.0, VarSym) && r.value.1 > count
    ensures r.Success? ==> |r.value.0.syms| == |st.syms| + (r.value.1 - count)
    ensures r.Success? ==>
              forall i :: |st.syms| <= i < |r.value.0.syms| ==> r.value.0.syms[i].addr == count + (i - |st.syms|) + 3
    ensures r.Success? ==> Cur(r.value.0).kind != Comma
  {
    if Cur(st1).kind == Comma then
      var d :- VarList(st1, count + 1);
      VarListStep(st, count, st1, d.0, d.1);
      Success(d)
    else Success((st1, count + 1))
  }

  /** The first variable of the list alone. */
  lemma VarListFirst(st: Compiler, count: nat, st1: Compiler)
    requires AppendsDecls(Advance(st), st1, VarSym) && Remaining(st1) < Remaining(Advance(st))
    requires st1.syms == st.syms + [Symbol(VarSym, Cur(Advance(st)).lexeme, 0, st.level, count + 3, false)]
    ensures AppendsDecls(st, st1, VarSym) && Remaining(st1) < Remaining(st)
    ensures |st1.syms| == |st.syms| + 1 && st1.syms[|st.syms|].addr == count + 3
  {
    AdvanceConsumes(st);
  }

  /** One variable followed by the rest of the list makes the whole list. */
  lemma VarListStep(st: Compiler, count: nat, st1: Compiler, st2: Compiler, n: nat)
    requires AppendsDecls(st, st1, VarSym)
    requires |st1.syms| == |st.syms| + 1 && st1.syms[|st.syms|].addr == count + 3
    requires AppendsDecls(st1, st2, VarSym) && n > count + 1
    requires |st2.syms| == |st1.syms| + (n - (count + 1))
    requires forall i :: |st1.syms| <= i < |st2.syms| ==> st2.syms[i].addr == count + 1 + (i - |st1.syms|) + 3
    ensures AppendsDecls(st, st2, VarSym) && |st2.syms| == |st.syms| + (n - count)
    ensures forall i :: |st.syms| <= i < |st2.syms| ==> st2.syms[i].addr == count + (i - |st.syms|) + 3
  {
  }

  /** `var_declaration`: the variables get frame offsets 3, 4, ... in
      declaration order, and their number is returned. */
  function VarDecl(st: Compiler): (r: Result<(Compiler, nat), CompileError>)
    decreases Remaining(st), 8
    ensures r.Success? ==> AppendsDecls(st, r.value.0, VarSym)
    ensures r.Success? ==> |r.value.0.syms| == |st.syms| + r.value.1
    ensures r.Success? ==>
              forall i :: |st.syms| <= i < |r.value.0.syms| ==> r.value.0.syms[i].addr == (i - |st.syms|) + 3
    ensures Cur(st).kind != Var ==> r == Success((st, 0))
  {
    if Cur(st).kind != Var then Success((st, 0))
    else
      var p :- VarList(st, 0);
      if Cur(p.0).kind != Semicolon then Failure(Syntax(5))
      else Success((Advance(p.0), p.1))
  }

  /** syms2 keeps every entry of syms, in place. */
  predicate KeepsSyms(syms: seq<Symbol>, syms2: seq<Symbol>) {
    |syms| <= |syms2| && forall i :: 0 <= i < |syms| ==> syms2[i] == syms[i]
  }

  /** Every entry past index lo either was declared at `level` or has
      already left scope from a deeper level. */
  predicate OwnOrClosed(syms: seq<Symbol>, lo: nat, level: nat) {
    forall i :: lo <= i < |syms| ==> syms[i].level == level || (syms[i].marked && syms[i].level > level)
  }

  /** What a run of procedure declarations does to the state. */
  predicate ProcDeclsPost(st: Compiler, st2: Compiler) {
    Continues(st, st2) && Extends(st.code, st2.code) && KeepsSyms(st.syms, st2.syms) &&
    (forall i :: |st.syms| <= i < |st2.syms| ==> st2.syms[i].kind == ProcSym || st2.syms[i].level > st.level) &&
    OwnOrClosed(st2.syms, |st.syms|, st.level) &&
    (ScopeInvariant(st.syms, st.level) ==> ScopeInvariant(st2.syms, st.level))
  }

  /** `procedure_declaration`: the procedure is entered with the current
      code index, its block is compiled one level deeper and closed by a
      return, and after the trailing semicolon its address is overwritten
      with the index past that return. */
  function ProcDecl(st: Compiler): (r: Result<Compiler, CompileError>)
    requires Cur(st).kind == Procedure
    decreases Remaining(st), 8
    ensures r.Success? ==> ProcDeclsPost(st, r.value) && Remaining(r.value) < Remaining(st)
    ensures r.Success? ==> |r.value.code| > |st.code| && Last(r.value.code) == Instr(OPR, 0, 0)
    ensures r.Success? ==> |r.value.syms| > |st.syms|
    ensures r.Success? ==>
              r.value.syms[|st.syms|] == Symbol(ProcSym, Cur(Advance(st)).lexeme, 0, st.level, |r.value.code|, false)
    ensures r.Success? ==>
              forall i :: |st.syms| < i < |r.value.syms| ==> r.value.syms[i].marked && r.value.syms[i].level > st.level
    ensures Cur(Advance(st)).kind != Ident ==> r == Failure(Syntax(1))
    ensures Cur(Advance(st)).kind == Ident && Visible(st.syms, Cur(Advance(st)).lexeme, st.level) ==>
              r == Failure(Syntax(2))
    ensures Cur(Advance(st)).kind == Ident && !Visible(st.syms, Cur(Advance(st)).lexeme, st.level) &&
            Cur(Advance(Advance(st))).kind != Semicolon ==>
              r == Failure(Syntax(5))
  {
    var st1 := Advance(st);
    if Cur(st1).kind != Ident then Failure(Syntax(1))
    else
      var name := Cur(st1).lexeme;
      if FindSymbol(st.syms, name, st.level) != -1 then Failure(Syntax(2))
      else
        var s := Symbol(ProcSym, name, 0, st.level, |st.code|, false);
        var st2 := Advance(st1.(syms := st.syms + [s]));
        if Cur(st2).kind != Semicolon then Failure(Syntax(5))
        else
          DeclarationKeepsNamesDistinct(st.syms, s, st.level);
          ProcDeclBody(st, s, st2)
  }

  /** The rest of a procedure declaration once its heading `procedure ident`
      has put the entry s into the table and st2 is at the semicolon. */
  function ProcDeclBody(st: Compiler, s: Symbol, st2: Compiler): (r: Result<Compiler, CompileError>)
    requires s.kind == ProcSym && s.level == st.level && s.addr == |st.code| && !s.marked
    requires st2.toks == st.toks && st2.level == st.level && Remaining(st2) < Remaining(st)
    requires st2.syms == st.syms + [s] && st2.code == st.code
    requires ScopeInvariant(st.syms, st.level) ==> ScopeInvariant(st2.syms, st.level)
    decreases Remaining(st), 7
    ensures r.Success? ==> ProcDeclsPost(st, r.value) && Remaining(r.value) < Remaining(st)
    ensures r.Success? ==> |r.value.code| > |st.code| && Last(r.value.code) == Instr(OPR, 0, 0)
    ensures r.Success? ==> |r.value.syms| > |st.syms|
    ensures r.Success? ==> r.value.syms[|st.syms|] == s.(addr := |r.value.code|)
    ensures r.Success? ==>
              forall i :: |st.syms| < i < |r.value.syms| ==> r.value.syms[i].marked && r.value.syms[i].level > st.level
    ensures r.Success? ==> 0 < r.value.pos <= |r.value.toks| && r.value.toks[r.value.pos - 1].kind == Semicolon
  {
    AdvanceConsumes(st2);
    var inner := Advance(st2).(level := st.level + 1);
    assert Remaining(inner) < Remaining(st);
    var st3 :- Block(inner);
    ProcReturn(st, s, st2, st3)
  }

  /** After the procedure's block st3: the return, the semicolon that must
      follow it, and the overwrite of the procedure's address. */
  function ProcReturn(st: Compiler, s: Symbol, st2: Compiler, st3: Compiler): (r: Result<Compiler, CompileError>)
    requires s.kind == ProcSym && s.level == st.level && s.addr == |st.code| && !s.marked
    requires st2.toks == st.toks && st2.level == st.level && Remaining(st2) < Remaining(st)
    requires st2.syms == st.syms + [s] && st2.code == st.code
    requires ScopeInvariant(st.syms, st.level) ==> ScopeInvariant(st2.syms, st.level)
    requires BlockPost(Advance(st2).(level := st.level + 1), st3)
    ensures r.Success? ==> ProcDeclsPost(st, r.value) && Remaining(r.value) < Remaining(st)
    ensures r.Success? ==> |r.value.code| > |st.code| && Last(r.value.code) == Instr(OPR, 0, 0)
    ensures r.Success? ==> |r.value.syms| > |st.syms|
    ensures r.Success? ==> r.value.syms[|st.syms|] == s.(addr := |r.value.code|)
    ensures r.Success? ==>
              forall i :: |st.syms| < i < |r.value.syms| ==> r.value.syms[i].marked && r.value.syms[i].level > st.level
    ensures r.Success? ==> 0 < r.value.pos <= |r.value.toks| && r.value.toks[r.value.pos - 1].kind == Semicolon
    ensures |st3.code| < CodeSize && Cur(st3).kind != Semicolon ==> r == Failure(Syntax(5))
  {
    var st4 :- Emit(st3.(level := st.level), OPR, 0, 0);
    if Cur(st4).kind != Semicolon then Failure(Syntax(5))
    else
      ProcDeclBodyShape(st, s, st2, st3, st4);
      Success(ProcClosed(st, s, st4))
  }

  /** The state after the semicolon that ends a procedure declaration: the
      procedure's entry s (at index |st.syms|) gets the code index past the
      return as its address. */
  function ProcClosed(st: Compiler, s: Symbol, st4: Compiler): Compiler
    requires |st.syms| < |st4.syms|
  {
    Advance(st4).(syms := st4.syms[|st.syms| := s.(addr := |st4.code|)])
  }

  /** The parts of a procedure's body together give its declaration's
      effect. */
  lemma ProcDeclBodyShape(st: Compiler, s: Symbol, st2: Compiler, st3: Compiler, st4: Compiler)
    requires s.kind == ProcSym && s.level == st.level && s.addr == |st.code| && !s.marked
    requires st2.toks == st.toks && st2.level == st.level && Remaining(st2) < Remaining(st)
    requires st2.syms == st.syms + [s] && st2.code == st.code
    requires ScopeInvariant(st.syms, st.level) ==> ScopeInvariant(st2.syms, st.level)
    requires BlockPost(Advance(st2).(level := st.level + 1), st3)
    requires st4 == st3.(level := st.level).(code := st3.code + [Instr(OPR, 0, 0)])
    ensures |st.syms| < |st4.syms|
    ensures ProcDeclsPost(st, ProcClosed(st, s, st4)) && Remaining(ProcClosed(st, s, st4)) < Remaining(st)
    ensures |ProcClosed(st, s, st4).code| > |st.code| && Last(ProcClosed(st, s, st4).code) == Instr(OPR, 0, 0)
    ensures |ProcClosed(st, s, st4).syms| > |st.syms|
    ensures ProcClosed(st, s, st4).syms[|st.syms|] == s.(addr := |ProcClosed(st, s, st4).code|)
    ensures forall i :: |st.syms| < i < |ProcClosed(st, s, st4).syms| ==>
              ProcClosed(st, s, st4).syms[i].marked && ProcClosed(st, s, st4).syms[i].level > st.level
  {
    var inner := Advance(st2).(level := st.level + 1);
    AdvanceConsumes(st2);
    assert EntryCode(inner) == inner.code;
    AdvanceConsumes(st4);
    var syms := st4.syms[|st.syms| := s.(addr := |st4.code|)];
    ProcDeclShape(st.syms, s, st3.syms, |st4.code|, syms, st.level);
  }

  /** The symbol table after a procedure declaration: the procedure's entry
      (with its final address) and then the body's entries, all closed. */
  lemma ProcDeclShape(syms: seq<Symbol>, s: Symbol, body: seq<Symbol>, addr: int, syms2: seq<Symbol>, level: nat)
    requires s.level == level && s.kind == ProcSym && !s.marked
    requires KeepsSyms(syms + [s], body)
    requires forall i :: |syms| + 1 <= i < |body| ==> body[i].marked && body[i].level >= level + 1
    requires syms2 == body[|syms| := s.(addr := addr)]
    requires ScopeInvariant(syms, level) ==> ScopeInvariant(syms + [s], level)
    ensures KeepsSyms(syms, syms2) && OwnOrClosed(syms2, |syms|, level)
    ensures forall i :: |syms| <= i < |syms2| ==> syms2[i].kind == ProcSym || syms2[i].level > level
    ensures ScopeInvariant(syms, level) ==> ScopeInvariant(syms2, level)
  {
    if ScopeInvariant(syms, level) {
      var t := syms + [s];
      assert ScopeInvariant(t, level);
      forall i, j | 0 <= i < j < |syms2| && !syms2[i].marked && !syms2[j].marked
        ensures syms2[i].name != syms2[j].name
      {
        assert j < |t| && syms2[i].name == t[i].name && syms2[j].name == t[j].name;
      }
    }
  }

  /** The `while (procsym)` loop of `block`. */
  function ProcDecls(st: Compiler): (r: Result<Compiler, CompileError>)
    decreases Remaining(st), 9
    ensures r.Success? ==> ProcDeclsPost(st, r.value) && Cur(r.value).kind != Procedure
    ensures Cur(st).kind != Procedure ==> r == Success(st)
  {
    if Cur(st).kind == Procedure then
      var st1 :- ProcDecl(st);
      var st2 :- ProcDecls(st1);
      ProcDeclsPostTrans(st, st1, st2);
      Success(st2)
    else Success(st)
  }

  lemma ProcDeclsPostTrans(st: Compiler, st1: Compiler, st2: Compiler)
    requires ProcDeclsPost(st, st1) && ProcDeclsPost(st1, st2)
    ensures ProcDeclsPost(st, st2)
  {
  }

  /** At the outermost block the leading jump is patched to the current
      code index on entry; inner blocks leave the code alone. */
  function EntryCode(st: Compiler): (code: seq<Instr>)
    ensures |code| == |st.code|
    ensures forall i :: 0 < i < |code| ==> code[i] == st.code[i]
    ensures |code| > 0 ==> code[0] == if st.level == 0 then st.code[0].(m := |st.code|) else st.code[0]
  {
    if st.level == 0 && |st.code| > 0 then Patch(st.code, 0, |st.code|) else st.code
  }

  /** What the declaration part of a block does: it adds symbols declared
      at the block's level, or closed ones from deeper levels, and exactly
      n of the new entries are variables of the block's level. */
  predicate DeclarationsPost(st: Compiler, st2: Compiler, n: nat) {
    Continues(st, st2) && Extends(st.code, st2.code) && KeepsSyms(st.syms, st2.syms) &&
    OwnOrClosed(st2.syms, |st.syms|, st.level) &&
    VarsAt(st2.syms[|st.syms|..], st.level) == n
  }

  /** The const, var and procedure declarations of a block; the result
      carries the number of variables. */
  function Declarations(st: Compiler): (r: Result<(Compiler, nat), CompileError>)
    decreases Remaining(st), 10
    ensures r.Success? ==> DeclarationsPost(st, r.value.0, r.value.1)
  {
    var st1 :- ConstDecl(st);
    var d :- VarDecl(st1);
    var st3 :- ProcDecls(d.0);
    DeclarationsShape(st, st1, d.0, d.1, st3);
    Success((st3, d.1))
  }

  /** The three kinds of declaration together give the block's. */
  lemma DeclarationsShape(st: Compiler, st1: Compiler, st2: Compiler, n: nat, st3: Compiler)
    requires AppendsDecls(st, st1, ConstSym)
    requires AppendsDecls(st1, st2, VarSym) && |st2.syms| == |st1.syms| + n
    requires ProcDeclsPost(st2, st3)
    ensures DeclarationsPost(st, st3, n)
  {
    BlockVarCount(st3.syms, |st.syms|, |st1.syms|, |st2.syms|, st.level);
  }

  /** Counting the variables a block declared at its own level: its
      constants, then its variables, then the entries of its procedures. */
  lemma BlockVarCount(syms: seq<Symbol>, a: nat, b: nat, c: nat, level: nat)
    requires a <= b <= c <= |syms|
    requires forall i :: a <= i < b ==> syms[i].kind == ConstSym
    requires forall i :: b <= i < c ==> syms[i].kind == VarSym && syms[i].level == level
    requires forall i :: c <= i < |syms| ==> syms[i].kind == ProcSym || syms[i].level > level
    ensures VarsAt(syms[a..], level) == c - b
  {
    assert syms[a..] == syms[a..b] + syms[b..c] + syms[c..];
    VarsAtAppend(syms[a..b] + syms[b..c], syms[c..], level);
    VarsAtAppend(syms[a..b], syms[b..c], level);
    VarsAtNone(syms[a..b], level);
    VarsAtAll(syms[b..c], level);
    VarsAtNone(syms[c..], level);
  }

  /** Marking changes no entry's kind or level, so no count. */
  lemma MarkScopeKeepsCount(syms: seq<Symbol>, from: nat, level: nat)
    requires from <= |syms|
    ensures VarsAt(MarkScope(syms, from, level)[from..], level) == VarsAt(syms[from..], level)
  {
    VarsAtSameShape(MarkScope(syms, from, level)[from..], syms[from..], level);
  }

  /** What a block does to the state. */
  predicate BlockPost(st: Compiler, st2: Compiler) {
    Continues(st, st2) && Extends(EntryCode(st), st2.code) && KeepsSyms(st.syms, st2.syms) &&
    (forall i :: |st.syms| <= i < |st2.syms| ==> st2.syms[i].marked && st2.syms[i].level >= st.level)
  }

  /** `block`: declarations, the frame allocation, the body, and then the
      block's own symbols leave scope. The block's own `INC 0 3+n` sits
      right where its declarations (the code of its procedures) end, and n
      is the number of variables the block declared. */
  function Block(st: Compiler): (r: Result<Compiler, CompileError>)
    decreases Remaining(st), 11
    ensures r.Success? ==> BlockPost(st, r.value)
    ensures r.Success? ==>
              var d := Declarations(st.(code := EntryCode(st)));
              d.Success? && |st.code| <= |d.value.0.code| < |r.value.code| &&
              r.value.code[|d.value.0.code|] == Instr(INC, 0, 3 + d.value.1) &&
              d.value.1 == VarsAt(r.value.syms[|st.syms|..], st.level)
  {
    var d :- Declarations(st.(code := EntryCode(st)));
    BlockBody(st, d.0, d.1)
  }

  /** The rest of `block` once its declarations, which declared n
      variables, are compiled: the frame allocation, the statement, and the
      marking of the block's own symbols. */
  function BlockBody(st: Compiler, decl: Compiler, n: nat): (r: Result<Compiler, CompileError>)
    requires DeclarationsPost(st.(code := EntryCode(st)), decl, n)
    ensures r.Success? ==> BlockPost(st, r.value)
    ensures r.Success? ==> |decl.code| < |r.value.code| && r.value.code[|decl.code|] == Instr(INC, 0, 3 + n)
    ensures r.Success? ==> n == VarsAt(r.value.syms[|st.syms|..], st.level)
  {
    var st4 :- Emit(decl, INC, 0, 3 + n);
    var st5 :- Statement(st4);
    var st6 := st5.(syms := MarkScope(st5.syms, |st.syms|, st.level));
    BlockShape(st, decl, n, st4, st5, st6);
    Success(st6)
  }

  lemma BlockShape(st: Compiler, decl: Compiler, n: nat, st4: Compiler, st5: Compiler, st6: Compiler)
    requires DeclarationsPost(st.(code := EntryCode(st)), decl, n)
    requires st4 == decl.(code := decl.code + [Instr(INC, 0, 3 + n)])
    requires AddsCode(st4, st5)
    requires st6 == st5.(syms := MarkScope(st5.syms, |st.syms|, st.level))
    ensures BlockPost(st, st6)
    ensures |decl.code| < |st6.code| && st6.code[|decl.code|] == Instr(INC, 0, 3 + n)
    ensures n == VarsAt(st6.syms[|st.syms|..], st.level)
  {
    MarkScopeKeepsCount(st5.syms, |st.syms|, st.level);
  }

  /** `program`: a leading jump, the main block at level 0, the final
      period check on the last token of the list, every symbol leaves
      scope, and a halt. The main frame's `INC` follows the code of the
      program's procedures. */
  function Program(toks: seq<Token>): (r: Result<Compiler, CompileError>)
    ensures r.Success? ==> |toks| > 0 && toks[|toks| - 1].kind == Period
    ensures r.Success? ==> 2 <= |r.value.code| <= CodeSize
    ensures r.Success? ==> r.value.code[0] == Instr(JMP, 0, 1) && Last(r.value.code) == Instr(SYS, 0, 3)
    ensures r.Success? ==> forall i :: 0 <= i < |r.value.code| ==> r.value.code[i].l >= 0
    ensures r.Success? ==> forall i :: 0 <= i < |r.value.syms| ==> r.value.syms[i].marked
    ensures r.Success? ==>
              var d := Declarations(Compiler(toks, 0, 0, [], [Instr(JMP, 0, 1)]));
              d.Success? && 1 <= |d.value.0.code| < |r.value.code| &&
              r.value.code[|d.value.0.code|] == Instr(INC, 0, 3 + VarsAt(r.value.syms, 0))
    ensures |toks| > 0 && toks[|toks| - 1].kind != Period ==> r.Failure?
  {
    // The leading jump; emitting into the empty code array cannot fail.
    var st0 := Compiler(toks, 0, 0, [], [Instr(JMP, 0, 0)]);
    var st1 :- Block(st0);
    if |toks| == 0 then Failure(EmptyTokenList)
    else if toks[|toks| - 1].kind != Period then Failure(Syntax(0))
    else
      var syms := MarkAll(st1.syms);
      var st2 :- Emit(st1.(syms := syms), SYS, 0, 3);
      assert st0.(code := EntryCode(st0)) == Compiler(toks, 0, 0, [], [Instr(JMP, 0, 1)]);
      var d := Declarations(st0.(code := EntryCode(st0))).value;
      ProgramShape(st0, st1, st2, |d.0.code|, d.1);
      Success(st2)
  }

  lemma ProgramShape(st0: Compiler, st1: Compiler, st2: Compiler, p: nat, n: nat)
    requires st0.code == [Instr(JMP, 0, 0)] && st0.syms == [] && st0.level == 0
    requires BlockPost(st0, st1)
    requires p < |st1.code| && st1.code[p] == Instr(INC, 0, 3 + n) && n == VarsAt(st1.syms[0..], 0)
    requires st2.syms == MarkAll(st1.syms) && st2.code == st1.code + [Instr(SYS, 0, 3)]
    ensures st2.code[0] == Instr(JMP, 0, 1)
    ensures forall i :: 0 <= i < |st2.code| ==> st2.code[i].l >= 0
    ensures p < |st2.code| && st2.code[p] == Instr(INC, 0, 3 + VarsAt(st2.syms, 0))
  {
    assert st1.syms[0..] == st1.syms;
    VarsAtSameShape(st2.syms, st1.syms, 0);
  }
}

=== FILE: lexer.dfy ===
/** The PL/0 scanner (hw4compiler.c, `scanTokens`). It makes two passes over
    the lines of the source. The first only checks the lexical rules and
    collects every violation it meets, without stopping; the second, which
    runs only when the first found nothing, produces the tokens. Both passes
    scan with maximal munch and drop whitespace and comments. */
module Lexer {

  import opened Results
  import opened Tokens
  import SourceLines

  const MaxIdLen: nat := 11
  const MaxNumLen: nat := 5
  /** The error list holds at most this many messages. */
  const MaxErrors: nat := 100
  /** The spelling buffer keeps at most this many characters. */
  const LexemeLimit: nat := 99

  predicate IsLetter(c: char) { 'a' <= c <= 'z' || 'A' <= c <= 'Z' }
  predicate IsDigit(c: char) { '0' <= c <= '9' }
  /** `isspace` in the C locale: blank, tab, newline, vertical tab, form
      feed, carriage return. */
  predicate IsSpace(c: char) { c == ' ' || '\t' <= c <= '\r' }

  /** The character at position i of a line as the C buffer holds it: the
      line's characters, then the terminating NUL. The buffer beyond the
      terminator is never inspected by a scan that follows the rules; where
      the source does read there (after an unterminated comment) the model
      reads NUL as well, which ends the line. */
  function At(line: string, i: int): char {
    if 0 <= i < |line| then line[i] else '\0'
  }

  /** The character classes a maximal-munch run is made of. */
  datatype CharClass = Alnum | Digits | DigitsAndDots

  predicate InClass(c: char, k: CharClass) {
    match k
    case Alnum => IsLetter(c) || IsDigit(c)
    case Digits => IsDigit(c)
    case DigitsAndDots => IsDigit(c) || c == '.'
  }

  /** The end of the longest run of class k starting at i. */
  function Span(line: string, i: nat, k: CharClass): (e: nat)
    decreases |line| - i
    ensures i <= e && (e == i || e <= |line|)
    ensures forall j :: i <= j < e ==> InClass(At(line, j), k)
    ensures !InClass(At(line, e), k)
  {
    if InClass(At(line, i), k) then Span(line, i + 1, k) else i
  }

  /** A comment closes at position p: `*` followed by `/`. */
  predicate Closes(line: string, p: int) {
    At(line, p) == '*' && At(line, p + 1) == '/'
  }

  /** The first position from j on that closes the comment or holds the
      terminating NUL. */
  function CommentEnd(line: string, j: nat): (e: nat)
    decreases |line| - j
    ensures j <= e && (e == j || e <= |line|)
    ensures Closes(line, e) || At(line, e) == '\0'
    ensures forall p :: j <= p < e ==> !Closes(line, p) && At(line, p) != '\0'
  {
    if Closes(line, j) || At(line, j) == '\0' then j else CommentEnd(line, j + 1)
  }

  /** The one-character tokens. */
  function Punctuation(c: char): Option<TokenKind> {
    match c
    case '+' => Some(Plus)      case '-' => Some(Minus)
    case '*' => Some(Times)     case '/' => Some(Slash)
    case '(' => Some(LParen)    case ')' => Some(RParen)
    case '=' => Some(Eql)       case ',' => Some(Comma)
    case '.' => Some(Period)    case ';' => Some(Semicolon)
    case _ => None
  }

  /** The lexical errors the first pass reports. */
  datatype LexError =
    | UnterminatedComment
    | IdentifierTooLong
    | DecimalNumber
    | NumberTooLong
    | InvalidColon
    | InvalidSymbol

  function Message(e: LexError): string {
    match e
    case UnterminatedComment => "Unterminated comment"
    case IdentifierTooLong => "Identifier too long"
    case DecimalNumber => "Decimal numbers not allowed"
    case NumberTooLong => "Number too long"
    case InvalidColon => "Invalid symbol ':'"
    case InvalidSymbol => "Invalid symbol"
  }

  /** One step of a scan: where the next step starts and what this one
      found. */
  datatype Scan<T> = Scan(next: nat, found: seq<T>)

  /** One step of the checking pass at a non-NUL position. */
  function CheckStep(line: string, i: nat): (s: Scan<LexError>)
    requires At(line, i) != '\0'
    ensures i < s.next && |s.found| <= 1
    ensures IsSpace(At(line, i)) ==> s == Scan(i + 1, [])
    ensures At(line, i) == '/' && At(line, i + 1) == '*' ==>
              s.next == CommentEnd(line, i + 2) + 2 &&
              (s.found == [UnterminatedComment] <==>
                 forall p :: i + 2 <= p <= s.next - 2 ==> !Closes(line, p)) &&
              (s.found == [] <==> At(line, CommentEnd(line, i + 2)) != '\0')
    ensures IsLetter(At(line, i)) ==>
              s.next == Span(line, i, Alnum) &&
              (s.found == [IdentifierTooLong] <==> s.next - i > MaxIdLen) &&
              (s.found == [] <==> s.next - i <= MaxIdLen)
    ensures IsDigit(At(line, i)) && At(line, Span(line, i, Digits)) == '.' ==>
              s.found == [DecimalNumber] && s.next == Span(line, Span(line, i, Digits), DigitsAndDots)
    ensures IsDigit(At(line, i)) && At(line, Span(line, i, Digits)) != '.' ==>
              s.next == Span(line, i, Digits) &&
              (s.found == [NumberTooLong] <==> s.next - i > MaxNumLen) &&
              (s.found == [] <==> s.next - i <= MaxNumLen)
    ensures At(line, i) == '<' ==> s == Scan(if At(line, i + 1) in "=>" then i + 2 else i + 1, [])
    ensures At(line, i) == '>' ==> s == Scan(if At(line, i + 1) == '=' then i + 2 else i + 1, [])
    ensures At(line, i) == ':' ==>
              s.next == (if At(line, i + 1) == '=' then i + 2 else i + 1) &&
              (s.found == [InvalidColon] <==> At(line, i + 1) != '=') &&
              (s.found == [] <==> At(line, i + 1) == '=')
    ensures Punctuation(At(line, i)).Some? && !(At(line, i) == '/' && At(line, i + 1) == '*') ==>
              s == Scan(i + 1, [])
    ensures !IsSpace(At(line, i)) && !IsLetter(At(line, i)) && !IsDigit(At(line, i)) &&
            At(line, i) !in "<>:" && Punctuation(At(line, i)).None? ==>
              s == Scan(i + 1, [InvalidSymbol])
  {
    var c := At(line, i);
    if IsSpace(c) then Scan(i + 1, [])
    else if c == '/' && At(line, i + 1) == '*' then
      var j := CommentEnd(line, i + 2);
      Scan(j + 2, if At(line, j) == '\0' then [UnterminatedComment] else [])
    else if IsLetter(c) then
      var e := Span(line, i, Alnum);
      Scan(e, if e - i > MaxIdLen then [IdentifierTooLong] else [])
    else if IsDigit(c) then
      var e := Span(line, i, Digits);
      if At(line, e) == '.' then Scan(Span(line, e, DigitsAndDots), [DecimalNumber])
      else Scan(e, if e - i > MaxNumLen then [NumberTooLong] else [])
    else if c == '<' then
      Scan(if At(line, i + 1) == '=' || At(line, i + 1) == '>' then i + 2 else i + 1, [])
    else if c == '>' then
      Scan(if At(line, i + 1) == '=' then i + 2 else i + 1, [])
    else if c == ':' then
      if At(line, i + 1) == '=' then Scan(i + 2, []) else Scan(i + 1, [InvalidColon])
    else if Punctuation(c).Some? then Scan(i + 1, [])
    else Scan(i + 1, [InvalidSymbol])
  }

  /** Everything the checking pass reports for a line, from position i on,
      in order. */
  function LineErrors(line: string, i: nat): seq<LexError>
    decreases |line| - i
  {
    if At(line, i) == '\0' then []
    else
      var s := CheckStep(line, i);
      s.found + LineErrors(line, s.next)
  }

  /** `add_error`: record a message unless the list is already full. */
  function AddError(errs: seq<LexError>, e: LexError): seq<LexError> {
    if |errs| < MaxErrors then errs + [e] else errs
  }

  /** Record each finding of one line, in order. */
  function AddErrors(errs: seq<LexError>, found: seq<LexError>): seq<LexError>
    decreases |found|
  {
    if found == [] then errs else AddErrors(AddError(errs, found[0]), found[1..])
  }

  /** The checking pass over all lines. */
  function CheckLines(lines: seq<string>, errs: seq<LexError>): seq<LexError>
    decreases |lines|
  {
    if lines == [] then errs
    else CheckLines(lines[1..], AddErrors(errs, LineErrors(lines[0], 0)))
  }

  /** The spelling buffer's copy of line[i..e]. */
  function Lexeme(line: string, i: nat, e: nat): (s: string)
    requires i <= e <= |line|
    ensures e - i <= LexemeLimit ==> s == line[i..e]
  {
    line[i..if e - i > LexemeLimit then i + LexemeLimit else e]
  }

  /** One step of the token-producing pass at a non-NUL position; n is the
      line number the tokens carry. */
  function TokenStep(line: string, n: int, i: nat): (s: Scan<Token>)
    requires At(line, i) != '\0'
    ensures i < s.next && |s.found| <= 1
    ensures forall t :: t in s.found ==> t.line == n
    ensures IsSpace(At(line, i)) ==> s == Scan(i + 1, [])
    ensures At(line, i) == '/' && At(line, i + 1) == '*' ==> s == Scan(CommentEnd(line, i + 2) + 2, [])
    ensures IsLetter(At(line, i)) ==>
              s.next == Span(line, i, Alnum) && |s.found| == 1 &&
              (s.found[0].kind == Ident <==> Lexeme(line, i, s.next) !in ReservedSpellings) &&
              (s.found[0].kind == Ident ==> s.found[0].lexeme == Lexeme(line, i, s.next)) &&
              (s.found[0].kind != Ident ==> IsKeyword(s.found[0].kind) && FixedSpelling(s.found[0].kind) == Lexeme(line, i, s.next))
    ensures IsDigit(At(line, i)) ==>
              s.next == Span(line, i, Digits) && s.found == [Token(Number, Lexeme(line, i, s.next), n)]
    ensures At(line, i) == '<' && At(line, i + 1) == '=' ==> s.found == [Token(Leq, "", n)] && s.next == i + 2
    ensures At(line, i) == '<' && At(line, i + 1) == '>' ==> s.found == [Token(Neq, "", n)] && s.next == i + 2
    ensures At(line, i) == '>' && At(line, i + 1) == '=' ==> s.found == [Token(Geq, "", n)] && s.next == i + 2
    ensures At(line, i) == ':' && At(line, i + 1) == '=' ==> s.found == [Token(Becomes, "", n)] && s.next == i + 2
    ensures At(line, i) == '<' && At(line, i + 1) !in "=>" ==> s == Scan(i + 1, [Token(Lss, "", n)])
    ensures At(line, i) == '>' && At(line, i + 1) != '=' ==> s == Scan(i + 1, [Token(Gtr, "", n)])
    ensures At(line, i) == ':' && At(line, i + 1) != '=' ==> s == Scan(i + 1, [])
    ensures Punctuation(At(line, i)).Some? && !(At(line, i) == '/' && At(line, i + 1) == '*') ==>
              s == Scan(i + 1, [Token(Punctuation(At(line, i)).value, "", n)])
    ensures !IsSpace(At(line, i)) && !IsLetter(At(line, i)) && !IsDigit(At(line, i)) &&
            At(line, i) !in "<>:" && Punctuation(At(line, i)).None? ==>
              s == Scan(i + 1, [])
  {
    var c := At(line, i);
    if IsSpace(c) then Scan(i + 1, [])
    else if c == '/' && At(line, i + 1) == '*' then Scan(CommentEnd(line, i + 2) + 2, [])
    else if IsLetter(c) then
      var e := Span(line, i, Alnum);
      var id := Lexeme(line, i, e);
      Scan(e, [match Reserved(id) case Some(k) => Token(k, "", n) case None => Token(Ident, id, n)])
    else if IsDigit(c) then
      var e := Span(line, i, Digits);
      Scan(e, [Token(Number, Lexeme(line, i, e), n)])
    else if c == '<' then
      if At(line, i + 1) == '=' then Scan(i + 2, [Token(Leq, "", n)])
      else if At(line, i + 1) == '>' then Scan(i + 2, [Token(Neq, "", n)])
      else Scan(i + 1, [Token(Lss, "", n)])
    else if c == '>' then
      if At(line, i + 1) == '=' then Scan(i + 2, [Token(Geq, "", n)])
      else Scan(i + 1, [Token(Gtr, "", n)])
    else if c == ':' then
      if At(line, i + 1) == '=' then Scan(i + 2, [Token(Becomes, "", n)]) else Scan(i + 1, [])
    else
      match Punctuation(c)
      case Some(k) => Scan(i + 1, [Token(k, "", n)])
      case None => Scan(i + 1, [])
  }

  /** The tokens of a line, from position i on. */
  function LineTokens(line: string, n: int, i: nat): seq<Token>
    decreases |line| - i
  {
    if At(line, i) == '\0' then []
    else
      var s := TokenStep(line, n, i);
      s.found + LineTokens(line, n, s.next)
  }

  /** The token-producing pass over all lines; lines are numbered from n. */
  function TokensOfLines(lines: seq<string>, n: int): seq<Token>
    decreases |lines|
  {
    if lines == [] then [] else LineTokens(lines[0], n, 0) + TokensOfLines(lines[1..], n + 1)
  }

  /** A token as the scanner can produce it once the checking pass found
      nothing: identifiers of 1 to 11 letters and digits beginning with a
      letter and not reserved, numbers of 1 to 5 digits, and no spelling on
      any other kind. */
  predicate WellFormed(t: Token) {
    match t.kind
    case Ident =>
      0 < |t.lexeme| <= MaxIdLen && IsLetter(t.lexeme[0]) &&
      (forall j :: 0 <= j < |t.lexeme| ==> InClass(t.lexeme[j], Alnum)) &&
      t.lexeme !in ReservedSpellings
    case Number =>
      0 < |t.lexeme| <= MaxNumLen && forall j :: 0 <= j < |t.lexeme| ==> IsDigit(t.lexeme[j])
    case _ => t.lexeme == ""
  }

  /** Whole-text scanning: the checking pass, then, only when it recorded
      nothing, the token pass. */
  function Tokenize(text: string): (r: Result<seq<Token>, seq<LexError>>)
    ensures r.Failure? ==> 0 < |r.error| <= MaxErrors
    ensures r.Failure? <==> HasLexError(SourceLines.Lines(text))
    ensures r.Success? ==> forall t :: t in r.value ==> WellFormed(t)
  {
    var lines := SourceLines.Lines(text);
    var errs := CheckLines(lines, []);
    CheckLinesFindsEveryLine(lines);
    if |errs| > 0 then Failure(errs)
    else
      TokensOfCleanLinesWellFormed(lines, 1);
      Success(TokensOfLines(lines, 1))
  }

  // ---- The checking pass never stops early ----

  /** The first MaxErrors entries of a list. */
  function Cap(errs: seq<LexError>): (r: seq<LexError>)
    ensures |r| <= MaxErrors && r <= errs
    ensures |errs| <= MaxErrors ==> r == errs
  {
    if |errs| <= MaxErrors then errs else errs[..MaxErrors]
  }

  function AllLineErrors(lines: seq<string>): seq<LexError>
    decreases |lines|
  {
    if lines == [] then [] else LineErrors(lines[0], 0) + AllLineErrors(lines[1..])
  }

  lemma {:induction false} AddErrorsCaps(errs: seq<LexError>, found: seq<LexError>)
    requires |errs| <= MaxErrors
    ensures AddErrors(errs, found) == Cap(errs + found)
    decreases |found|
  {
    if found != [] {
      var e1 := AddError(errs, found[0]);
      AddErrorsCaps(e1, found[1..]);
      if |errs| < MaxErrors {
        assert errs + found == e1 + found[1..];
      } else {
        assert (errs + found)[..MaxErrors] == errs;
        assert (e1 + found[1..])[..MaxErrors] == errs;
      }
    }
  }

  /** Capping the record so far and then appending more findings (capped)
      loses nothing beyond the cap. */
  lemma CapOfCap(a: seq<LexError>, b: seq<LexError>)
    ensures Cap(Cap(a) + b) == Cap(a + b)
  {
    if |a| > MaxErrors {
      assert (a + b)[..MaxErrors] == a[..MaxErrors];
    }
  }

  /** Every line is checked whatever the lines before it contained: the
      record is the findings of all lines in order, up to the first 100. */
  lemma {:induction false} CheckLinesCollectsAll(lines: seq<string>, errs: seq<LexError>)
    requires |errs| <= MaxErrors
    ensures CheckLines(lines, errs) == Cap(errs + AllLineErrors(lines))
    decreases |lines|
  {
    if lines != [] {
      CheckLinesUnfold(lines, errs);
      var f := LineErrors(lines[0], 0);
      var rest := AllLineErrors(lines[1..]);
      AddErrorsCaps(errs, f);
      CheckLinesCollectsAll(lines[1..], AddErrors(errs, f));
      CapJoin(errs, f, rest);
    }
  }

  lemma CheckLinesUnfold(lines: seq<string>, errs: seq<LexError>)
    requires lines != []
    ensures CheckLines(lines, errs) == CheckLines(lines[1..], AddErrors(errs, LineErrors(lines[0], 0)))
    ensures AllLineErrors(lines) == LineErrors(lines[0], 0) + AllLineErrors(lines[1..])
  {
  }

  lemma CapJoin(errs: seq<LexError>, f: seq<LexError>, rest: seq<LexError>)
    ensures Cap(Cap(errs + f) + rest) == Cap(errs + (f + rest))
  {
    CapOfCap(errs + f, rest);
    assert errs + f + rest == errs + (f + rest);
  }

  lemma {:induction false} AllLineErrorsEmpty(lines: seq<string>)
    ensures AllLineErrors(lines) == [] <==> forall i :: 0 <= i < |lines| ==> LineErrors(lines[i], 0) == []
    decreases |lines|
  {
    if lines != [] {
      AllLineErrorsEmpty(lines[1..]);
      assert forall i :: 1 <= i < |lines| ==> lines[i] == lines[1..][i - 1];
    }
  }

  /** Some line breaks a lexical rule. */
  predicate HasLexError(lines: seq<string>) {
    exists i :: 0 <= i < |lines| && LineErrors(lines[i], 0) != []
  }

  /** Something is recorded exactly when some line has a finding. */
  lemma CheckLinesFindsEveryLine(lines: seq<string>)
    ensures |CheckLines(lines, [])| > 0 <==> HasLexError(lines)
    ensures |CheckLines(lines, [])| <= MaxErrors
  {
    CheckLinesCollectsAll(lines, []);
    AllLineErrorsEmpty(lines);
    assert [] + AllLineErrors(lines) == AllLineErrors(lines);
  }

  // ---- The two passes agree ----

  /** Where the checking pass finds nothing, the token pass takes the same
      step and yields only well-formed tokens. */
  lemma StepsAgree(line: string, n: int, i: nat)
    requires At(line, i) != '\0'
    requires CheckStep(line, i).found == []
    ensures TokenStep(line, n, i).next == CheckStep(line, i).next
    ensures forall t :: t in TokenStep(line, n, i).found ==> WellFormed(t)
  {
    var c := At(line, i);
    if IsLetter(c) && !(c == '/' && At(line, i + 1) == '*') && !IsSpace(c) {
      var e := Span(line, i, Alnum);
      var id := Lexeme(line, i, e);
      assert id == line[i..e];
      assert forall j :: 0 <= j < |id| ==> id[j] == At(line, i + j);
    } else if IsDigit(c) && !IsSpace(c) {
      var e := Span(line, i, Digits);
      var num := Lexeme(line, i, e);
      assert num == line[i..e];
      assert forall j :: 0 <= j < |num| ==> num[j] == At(line, i + j);
    }
  }

  lemma {:induction false} CleanLineTokensWellFormed(line: string, n: int, i: nat)
    requires LineErrors(line, i) == []
    ensures forall t :: t in LineTokens(line, n, i) ==> WellFormed(t) && t.line == n
    decreases |line| - i
  {
    if At(line, i) != '\0' {
      var s := CheckStep(line, i);
      StepsAgree(line, n, i);
      CleanLineTokensWellFormed(line, n, s.next);
    }
  }

  lemma {:induction false} TokensOfCleanLinesWellFormed(lines: seq<string>, n: int)
    requires forall i :: 0 <= i < |lines| ==> LineErrors(lines[i], 0) == []
    ensures forall t :: t in TokensOfLines(lines, n) ==> WellFormed(t)
    decreases |lines|
  {
    if lines != [] {
      CleanLineTokensWellFormed(lines[0], n, 0);
      TokensOfCleanLinesWellFormed(lines[1..], n + 1);
    }
  }
}

=== FILE: lexer_roundtrip.dfy ===
/** Scanning undoes spelling: writing well-formed tokens one per line and
    scanning that text gives the same tokens back, numbered by line. */
module LexerRoundTrip {

  import opened Results
  import opened Tokens
  import opened Lexer
  import SourceLines

  /** Each token's spelling on a line of its own. */
  function Unlex(toks: seq<Token>): string
    decreases |toks|
  {
    if toks == [] then [] else Spell(toks[0]) + "\n" + Unlex(toks[1..])
  }

  /** The same tokens, carrying line numbers n, n+1, ... */
  function Renumber(toks: seq<Token>, n: int): (r: seq<Token>)
    ensures |r| == |toks|
    ensures forall i :: 0 <= i < |toks| ==> r[i] == toks[i].(line := n + i)
  {
    seq(|toks|, i requires 0 <= i < |toks| => toks[i].(line := n + i))
  }

  /** A line holding one spelling and its newline. */
  predicate IsSpellingLine(line: string) {
    0 < |line| <= SourceLines.ChunkLimit && line[|line| - 1] == '\n' &&
    forall j :: 0 <= j < |line| - 1 ==> line[j] != '\n'
  }

  /** A run of one class that ends with the line's newline spans the run. */
  lemma SpanToNewline(word: string, k: CharClass, i: nat)
    requires i < |word|
    requires forall j :: i <= j < |word| ==> InClass(word[j], k)
    requires !InClass('\n', k)
    ensures Span(word + "\n", i, k) == |word|
  {
    var line := word + "\n";
    assert forall j :: i <= j < |word| ==> At(line, j) == word[j];
    assert At(line, |word|) == '\n';
  }

  /** After the last spelling only the newline remains, which yields
      nothing. */
  lemma NewlineEndsLine(line: string, n: int)
    requires 0 < |line| && line[|line| - 1] == '\n'
    ensures LineErrors(line, |line| - 1) == []
    ensures LineTokens(line, n, |line| - 1) == []
  {
    var i := |line| - 1;
    assert CheckStep(line, i).next == i + 1;
    assert TokenStep(line, n, i).next == i + 1;
  }

  lemma WordLine(t: Token, n: int)
    requires WellFormed(t) && (t.kind == Ident || t.kind == Number)
    ensures LineErrors(Spell(t) + "\n", 0) == []
    ensures LineTokens(Spell(t) + "\n", n, 0) == [t.(line := n)]
  {
    var w := t.lexeme;
    var line := w + "\n";
    assert Spell(t) == w;
    assert At(line, 0) == w[0];
    var k := if t.kind == Ident then Alnum else Digits;
    SpanToNewline(w, k, 0);
    NewlineEndsLine(line, n);
    assert line[0..|w|] == w;
    if t.kind == Ident {
      assert CheckStep(line, 0) == Scan(|w|, []);
      assert TokenStep(line, n, 0) == Scan(|w|, [Token(Ident, w, n)]);
    } else {
      assert At(line, |w|) == '\n';
      assert CheckStep(line, 0) == Scan(|w|, []);
      assert TokenStep(line, n, 0) == Scan(|w|, [Token(Number, w, n)]);
    }
  }

  /** A reserved word alone on a line scans to its keyword. */
  lemma ReservedWordLine(w: string, k: TokenKind, n: int)
    requires 0 < |w| <= MaxIdLen && IsLetter(w[0])
    requires forall j :: 0 <= j < |w| ==> InClass(w[j], Alnum)
    requires Reserved(w) == Some(k)
    ensures LineErrors(w + "\n", 0) == []
    ensures LineTokens(w + "\n", n, 0) == [Token(k, "", n)]
  {
    var line := w + "\n";
    NewlineEndsLine(line, n);
    SpanToNewline(w, Alnum, 0);
    assert At(line, 0) == w[0];
    assert line[0..|w|] == w;
    assert CheckStep(line, 0) == Scan(|w|, []);
    assert TokenStep(line, n, 0) == Scan(|w|, [Token(k, "", n)]);
  }

  lemma KeywordLine(k: TokenKind, n: int)
    requires IsKeyword(k)
    ensures LineErrors(FixedSpelling(k) + "\n", 0) == []
    ensures LineTokens(FixedSpelling(k) + "\n", n, 0) == [Token(k, "", n)]
  {
    var w := FixedSpelling(k);
    assert 0 < |w| <= MaxIdLen && IsLetter(w[0]);
    assert forall j :: 0 <= j < |w| ==> InClass(w[j], Alnum);
    ReservedRecognisesKeywords(k);
    ReservedWordLine(w, k, n);
  }

  /** The kinds written as one punctuation character. */
  predicate IsPunctuationKind(k: TokenKind) {
    k in {Plus, Minus, Times, Slash, Eql, Comma, Period, Semicolon, LParen, RParen}
  }

  lemma PunctuationLine(k: TokenKind, n: int)
    requires IsPunctuationKind(k)
    ensures LineErrors(FixedSpelling(k) + "\n", 0) == []
    ensures LineTokens(FixedSpelling(k) + "\n", n, 0) == [Token(k, "", n)]
  {
    var line := FixedSpelling(k) + "\n";
    var c := line[0];
    assert |line| == 2 && line[1] == '\n';
    assert Punctuation(c) == Some(k) && c !in "<>:" && !IsSpace(c) && !IsLetter(c) && !IsDigit(c);
    NewlineEndsLine(line, n);
    assert CheckStep(line, 0) == Scan(1, []);
    assert TokenStep(line, n, 0) == Scan(1, [Token(k, "", n)]);
  }

  /** The kinds whose first character is `<`, `>` or `:`. */
  lemma RelationLine(k: TokenKind, n: int)
    requires k in {Lss, Leq, Neq, Gtr, Geq, Becomes}
    ensures LineErrors(FixedSpelling(k) + "\n", 0) == []
    ensures LineTokens(FixedSpelling(k) + "\n", n, 0) == [Token(k, "", n)]
  {
    var w := FixedSpelling(k);
    var line := w + "\n";
    assert line[|w|] == '\n';
    NewlineEndsLine(line, n);
    assert CheckStep(line, 0) == Scan(|w|, []);
    assert TokenStep(line, n, 0) == Scan(|w|, [Token(k, "", n)]);
  }

  lemma FixedLine(k: TokenKind, n: int)
    requires k != Ident && k != Number
    ensures LineErrors(FixedSpelling(k) + "\n", 0) == []
    ensures LineTokens(FixedSpelling(k) + "\n", n, 0) == [Token(k, "", n)]
  {
    if IsKeyword(k) {
      KeywordLine(k, n);
    } else if IsPunctuationKind(k) {
      PunctuationLine(k, n);
    } else {
      RelationLine(k, n);
    }
  }

  lemma WordHasNoNewline(t: Token)
    requires WellFormed(t) && (t.kind == Ident || t.kind == Number)
    ensures forall j :: 0 <= j < |t.lexeme| ==> t.lexeme[j] != '\n'
  {
    forall j | 0 <= j < |t.lexeme| ensures t.lexeme[j] != '\n' {
      if t.kind == Ident { assert InClass(t.lexeme[j], Alnum); }
      else { assert IsDigit(t.lexeme[j]); }
    }
  }

  /** The spelling of a well-formed token fits on one line. */
  lemma SpellingLineShape(t: Token)
    requires WellFormed(t)
    ensures IsSpellingLine(Spell(t) + "\n")
  {
    if t.kind == Ident || t.kind == Number {
      WordHasNoNewline(t);
      var line := Spell(t) + "\n";
      assert forall j :: 0 <= j < |line| - 1 ==> line[j] == t.lexeme[j];
    }
  }

  /** One well-formed token on a line scans cleanly back to itself. */
  lemma SpellingLineScans(t: Token, n: int)
    requires WellFormed(t)
    ensures IsSpellingLine(Spell(t) + "\n")
    ensures LineErrors(Spell(t) + "\n", 0) == []
    ensures LineTokens(Spell(t) + "\n", n, 0) == [t.(line := n)]
  {
    SpellingLineShape(t);
    if t.kind == Ident || t.kind == Number {
      WordLine(t, n);
    } else {
      FixedLine(t.kind, n);
      assert t == Token(t.kind, "", t.line);
    }
  }

  /** The lines of the spelled text. */
  function SpellingLines(toks: seq<Token>): (lines: seq<string>)
    ensures |lines| == |toks|
    ensures forall i :: 0 <= i < |toks| ==> lines[i] == Spell(toks[i]) + "\n"
  {
    seq(|toks|, i requires 0 <= i < |toks| => Spell(toks[i]) + "\n")
  }

  lemma {:induction false} UnlexLines(toks: seq<Token>)
    requires forall t :: t in toks ==> WellFormed(t)
    ensures SourceLines.Lines(Unlex(toks)) == SpellingLines(toks)
    decreases |toks|
  {
    if toks != [] {
      SpellingLineShape(toks[0]);
      UnlexLines(toks[1..]);
      var line := Spell(toks[0]) + "\n";
      assert Unlex(toks) == line + Unlex(toks[1..]);
      SourceLines.LinesOfNewlineTerminated(line, Unlex(toks[1..]));
      assert SpellingLines(toks) == [line] + SpellingLines(toks[1..]);
    }
  }

  /** No spelled line breaks a lexical rule. */
  lemma SpellingLinesClean(toks: seq<Token>)
    requires forall t :: t in toks ==> WellFormed(t)
    ensures forall i :: 0 <= i < |toks| ==> LineErrors(SpellingLines(toks)[i], 0) == []
  {
    forall i | 0 <= i < |toks| ensures LineErrors(SpellingLines(toks)[i], 0) == [] {
      SpellingLineScans(toks[i], 0);
    }
  }

  lemma {:induction false} SpellingLinesTokens(toks: seq<Token>, n: int)
    requires forall t :: t in toks ==> WellFormed(t)
    ensures TokensOfLines(SpellingLines(toks), n) == Renumber(toks, n)
    decreases |toks|
  {
    if toks != [] {
      var lines := SpellingLines(toks);
      TokensOfLinesUnfold(lines, n);
      SpellingLineScans(toks[0], n);
      assert lines[1..] == SpellingLines(toks[1..]);
      SpellingLinesTokens(toks[1..], n + 1);
      RenumberUnfold(toks, n);
    }
  }

  lemma TokensOfLinesUnfold(lines: seq<string>, n: int)
    requires lines != []
    ensures TokensOfLines(lines, n) == LineTokens(lines[0], n, 0) + TokensOfLines(lines[1..], n + 1)
  {
  }

  lemma RenumberUnfold(toks: seq<Token>, n: int)
    requires toks != []
    ensures Renumber(toks, n) == [toks[0].(line := n)] + Renumber(toks[1..], n + 1)
  {
    assert Renumber(toks, n)[1..] == Renumber(toks[1..], n + 1);
  }

  /** Scanning the spelled text reproduces the tokens. */
  lemma RoundTrip(toks: seq<Token>)
    requires forall t :: t in toks ==> WellFormed(t)
    ensures Tokenize(Unlex(toks)) == Success(Renumber(toks, 1))
  {
    UnlexLines(toks);
    SpellingLinesClean(toks);
    SpellingLinesTokens(toks, 1);
    var lines := SourceLines.Lines(Unlex(toks));
    assert !HasLexError(lines);
  }
}

=== FILE: machine.dfy ===
/** The PM/0 virtual machine of hw4-vm.c: one 500-cell array `pas` holding
    the loaded program from cell 10 on and a stack that grows downward from
    the top, three registers, and a fetch-execute loop that runs until a
    halt instruction clears its flag.

    The C program reads and writes `pas` without bounds checks and computes
    with 32-bit `int`s; an access outside the array or a result outside the
    `int` range is undefined behaviour there. The model makes each of these
    an explicit `Fault`, so that every run it accepts is one whose C
    behaviour is defined. */
module Machine {

  import opened Results
  import opened CInt

  /** `ARRAY_SIZE`, the cells of `pas`. */
  const MemSize: nat := 500
  /** Where the first instruction is loaded and where `pc` starts. */
  const CodeStart: nat := 10

  /** The machine's opcodes, as its switch numbers them. */
  const INC := 1
  const OPR := 2
  const LOD := 3
  const STO := 4
  const CAL := 5
  const LIT := 6
  const JMP := 7
  const JPC := 8
  const SYS := 9

  datatype Instruction = Instruction(op: int, l: int, m: int)

  /** The machine state: memory, the three registers, the `halt` flag
      (running while it is set), and the console as two integer streams. */
  datatype Vm = Vm(pas: seq<int>, pc: int, bp: int, sp: int, running: bool,
                   input: seq<int>, output: seq<int>)

  /** What C leaves undefined, and the read that `scanf` cannot satisfy. */
  datatype Fault = BadAddress(addr: int) | DivideByZero | Overflow | NoInput

  predicate InMem(a: int) {
    0 <= a < MemSize
  }

  /** A state the C program could be in: full-size memory, and every cell
      and register an `int`. */
  predicate Invariant(s: Vm) {
    |s.pas| == MemSize &&
    (forall i :: 0 <= i < |s.pas| ==> Fits(s.pas[i])) &&
    Fits(s.pc) && Fits(s.bp) && Fits(s.sp)
  }

  predicate AllFit(pas: seq<int>) {
    forall i :: 0 <= i < |pas| ==> Fits(pas[i])
  }

  /** The instruction stored at address a. */
  function Fetch(pas: seq<int>, a: int): Instruction
    requires 0 <= a && a + 2 < |pas|
  {
    Instruction(pas[a], pas[a + 1], pas[a + 2])
  }

  /** `base`: follow the static link l times from bp. */
  function Base(pas: seq<int>, bp: int, l: int): (r: Result<int, Fault>)
    decreases if l > 0 then l else 0
    ensures r.Success? && AllFit(pas) && Fits(bp) ==> Fits(r.value)
    ensures r.Success? && l > 0 ==> exists i :: 0 <= i < |pas| && r.value == pas[i]
    ensures r.Failure? ==> r.error.BadAddress? && l > 0 && !(0 <= r.error.addr < |pas|)
  {
    if l <= 0 then Success(bp)
    else if 0 <= bp < |pas| then Base(pas, pas[bp], l - 1)
    else Failure(BadAddress(bp))
  }

  /** The loop the C function runs, proved to compute `Base`. */
  method BaseWalk(pas: seq<int>, bp: int, l: int) returns (r: Result<int, Fault>)
    ensures r == Base(pas, bp, l)
  {
    var arb := bp;
    var k := l;
    while k > 0
      invariant Base(pas, arb, k) == Base(pas, bp, l)
      decreases k
    {
      if !(0 <= arb < |pas|) {
        return Failure(BadAddress(arb));
      }
      arb := pas[arb];
      k := k - 1;
    }
    return Success(arb);
  }

  /** Following a links and then b more is following a + b links. */
  lemma {:induction false} BaseCompose(pas: seq<int>, bp: int, a: nat, b: nat)
    ensures Base(pas, bp, a + b) ==
              (match Base(pas, bp, a)
               case Success(x) => Base(pas, x, b)
               case Failure(e) => Failure(e))
    decreases a
  {
    if a > 0 && 0 <= bp < |pas| {
      BaseCompose(pas, pas[bp], a - 1, b);
      assert a + b - 1 == (a - 1) + b;
    }
  }

  /** The address `base(bp, l) - m` of the variable an LOD or STO names. */
  function VarAddress(s: Vm, l: int, m: int): (r: Result<int, Fault>)
    ensures r.Success? ==> InMem(r.value)
    ensures r.Failure? && |s.pas| == MemSize ==> r.error.BadAddress? && !InMem(r.error.addr)
    ensures r.Success? ==> Base(s.pas, s.bp, l).Success? && r.value == Base(s.pas, s.bp, l).value - m
    ensures r.Success? <==> Base(s.pas, s.bp, l).Success? && InMem(Base(s.pas, s.bp, l).value - m)
  {
    var b :- Base(s.pas, s.bp, l);
    if InMem(b - m) then Success(b - m) else Failure(BadAddress(b - m))
  }

  /** Memory and registers change only as the two states say; the halt flag
      and the console are as they were. */
  predicate Quiet(s: Vm, r: Vm) {
    r.running == s.running && r.input == s.input && r.output == s.output
  }

  /** Cells other than a keep their contents. */
  predicate OnlyCellChanged(s: Vm, r: Vm, a: int) {
    |r.pas| == |s.pas| && forall i :: 0 <= i < |s.pas| && i != a ==> r.pas[i] == s.pas[i]
  }

  /** INC: reserve m cells by moving sp down. */
  function Inc(s: Vm, m: int): (r: Result<Vm, Fault>)
    ensures r.Success? <==> Fits(s.sp - m)
    ensures r.Success? ==> r.value == s.(sp := s.sp - m)
  {
    if Fits(s.sp - m) then Success(s.(sp := s.sp - m)) else Failure(Overflow)
  }

  /** OPR 0 (RTN): drop the frame and restore the caller's bp and pc from
      the frame's second and third cells. */
  function Return(s: Vm): (r: Result<Vm, Fault>)
    requires |s.pas| == MemSize
    ensures r.Success? ==> Quiet(s, r.value) && r.value.pas == s.pas
    ensures r.Success? ==> r.value.sp == s.bp + 1 && InMem(s.bp - 1) && InMem(s.bp - 2)
    ensures r.Success? ==> r.value.bp == s.pas[s.bp - 1] && r.value.pc == s.pas[s.bp - 2]
    ensures InMem(s.bp - 2) && InMem(s.bp - 1) <==> r.Success?
  {
    var sp := s.bp + 1;
    if !InMem(sp - 2) then Failure(BadAddress(sp - 2))
    else if !InMem(sp - 3) then Failure(BadAddress(sp - 3))
    else Success(s.(sp := sp, bp := s.pas[sp - 2], pc := s.pas[sp - 3]))
  }

  /** The eleven binary OPR codes on C `int`s: `a` is the second operand
      from the top (`pas[sp + 1]`), `b` the top (`pas[sp]`). */
  function Binary(m: int, a: int, b: int): (r: Result<int, Fault>)
    requires 1 <= m <= 11
    ensures r.Success? ==> Fits(r.value)
    ensures (m == 4 || m == 11) && b == 0 ==> r == Failure(DivideByZero)
    ensures 5 <= m <= 10 ==> r.Success? && (r.value == 0 || r.value == 1)
    ensures m == 5 ==> (r == Success(1) <==> a == b)
    ensures m == 6 ==> (r == Success(1) <==> a != b)
    ensures m == 7 ==> (r == Success(1) <==> a < b)
    ensures m == 8 ==> (r == Success(1) <==> a <= b)
    ensures m == 9 ==> (r == Success(1) <==> a > b)
    ensures m == 10 ==> (r == Success(1) <==> a >= b)
    ensures m == 1 ==> r == Checked(a + b)
    ensures m == 2 ==> r == Checked(a - b)
    ensures m == 3 ==> r == Checked(a * b)
    ensures m == 4 && b != 0 ==> r == Checked(TruncDiv(a, b))
    ensures m == 11 && b != 0 && !(a == MinInt && b == -1) ==> r == Checked(TruncMod(a, b))
    ensures m == 11 && a == MinInt && b == -1 ==> r == Failure(Overflow)
    ensures m == 1 && Fits(a + b) ==> r == Success(a + b)
    ensures m == 2 && Fits(a - b) ==> r == Success(a - b)
    ensures m == 3 && Fits(a * b) ==> r == Success(a * b)
    ensures (m == 1 || m == 2 || m == 3) ==> r.Success? || r == Failure(Overflow)
    ensures m == 11 && b != 0 && Fits(a) && Fits(b) && !(a == MinInt && b == -1) ==>
              r.Success? && Abs(r.value) < Abs(b) && a == b * TruncDiv(a, b) + r.value
  {
    if m == 1 then Checked(a + b)
    else if m == 2 then Checked(a - b)
    else if m == 3 then Checked(a * b)
    else if m == 4 then
      if b == 0 then Failure(DivideByZero) else Checked(TruncDiv(a, b))
    else if m == 5 then Success(if a == b then 1 else 0)
    else if m == 6 then Success(if a != b then 1 else 0)
    else if m == 7 then Success(if a < b then 1 else 0)
    else if m == 8 then Success(if a <= b then 1 else 0)
    else if m == 9 then Success(if a > b then 1 else 0)
    else if m == 10 then Success(if a >= b then 1 else 0)
    else
      if b == 0 then Failure(DivideByZero)
      else if a == MinInt && b == -1 then Failure(Overflow)
      else
        var v := TruncMod(a, b);
        assert Abs(v) <= Abs(a);
        Checked(v)
  }

  /** A mathematical result that C can hold, or the overflow C leaves
      undefined. */
  function Checked(v: int): (r: Result<int, Fault>)
    ensures r.Success? <==> Fits(v)
    ensures r.Success? ==> r.value == v
    ensures r.Failure? ==> r.error == Overflow
  {
    if Fits(v) then Success(v) else Failure(Overflow)
  }

  /** OPR 1..11: combine the top two cells into the second and pop one. */
  function Arith(s: Vm, m: int): (r: Result<Vm, Fault>)
    requires |s.pas| == MemSize && 1 <= m <= 11
    ensures r.Success? ==> Quiet(s, r.value) && r.value.pc == s.pc && r.value.bp == s.bp
    ensures r.Success? ==> InMem(s.sp) && InMem(s.sp + 1) && r.value.sp == s.sp + 1
    ensures r.Success? ==> OnlyCellChanged(s, r.value, s.sp + 1)
    ensures r.Success? ==> Binary(m, s.pas[s.sp + 1], s.pas[s.sp]) == Success(r.value.pas[s.sp + 1])
    ensures r.Success? <==> InMem(s.sp) && InMem(s.sp + 1) && Binary(m, s.pas[s.sp + 1], s.pas[s.sp]).Success?
  {
    if !InMem(s.sp) then Failure(BadAddress(s.sp))
    else if !InMem(s.sp + 1) then Failure(BadAddress(s.sp + 1))
    else
      var v :- Binary(m, s.pas[s.sp + 1], s.pas[s.sp]);
      Success(s.(pas := s.pas[s.sp + 1 := v], sp := s.sp + 1))
  }

  /** OPR 12: negate the second cell from the top and pop one, as the
      source does (the top cell is discarded). */
  function Negate(s: Vm): (r: Result<Vm, Fault>)
    requires |s.pas| == MemSize
    ensures r.Success? ==> Quiet(s, r.value) && r.value.pc == s.pc && r.value.bp == s.bp
    ensures r.Success? ==> InMem(s.sp + 1) && r.value.sp == s.sp + 1
    ensures r.Success? ==> OnlyCellChanged(s, r.value, s.sp + 1) && r.value.pas[s.sp + 1] == -s.pas[s.sp + 1]
    ensures InMem(s.sp + 1) && Fits(s.pas[s.sp + 1]) && s.pas[s.sp + 1] != MinInt ==> r.Success?
  {
    if !InMem(s.sp + 1) then Failure(BadAddress(s.sp + 1))
    else
      var v :- Checked(-s.pas[s.sp + 1]);
      Success(s.(pas := s.pas[s.sp + 1 := v], sp := s.sp + 1))
  }

  /** OPR: dispatch on m; a code the switch does not list does nothing. */
  function Operate(s: Vm, m: int): (r: Result<Vm, Fault>)
    requires |s.pas| == MemSize
    ensures !(0 <= m <= 12) ==> r == Success(s)
  {
    if m == 0 then Return(s)
    else if 1 <= m <= 11 then Arith(s, m)
    else if m == 12 then Negate(s)
    else Success(s)
  }

  /** LOD: push the variable at `base(bp, l) - m`. */
  function Load(s: Vm, l: int, m: int): (r: Result<Vm, Fault>)
    requires |s.pas| == MemSize
    ensures r.Success? ==> Quiet(s, r.value) && r.value.pc == s.pc && r.value.bp == s.bp
    ensures r.Success? ==> InMem(s.sp - 1) && r.value.sp == s.sp - 1 && OnlyCellChanged(s, r.value, s.sp - 1)
    ensures r.Success? ==> VarAddress(s, l, m).Success? && r.value.pas[s.sp - 1] == s.pas[VarAddress(s, l, m).value]
    ensures r.Success? <==> VarAddress(s, l, m).Success? && InMem(s.sp - 1)
  {
    var a :- VarAddress(s, l, m);
    if !InMem(s.sp - 1) then Failure(BadAddress(s.sp - 1))
    else Success(s.(sp := s.sp - 1, pas := s.pas[s.sp - 1 := s.pas[a]]))
  }

  /** STO: pop the top into the variable at `base(bp, l) - m`. */
  function Store(s: Vm, l: int, m: int): (r: Result<Vm, Fault>)
    requires |s.pas| == MemSize
    ensures r.Success? ==> Quiet(s, r.value) && r.value.pc == s.pc && r.value.bp == s.bp
    ensures r.Success? ==> InMem(s.sp) && r.value.sp == s.sp + 1 && VarAddress(s, l, m).Success?
    ensures r.Success? ==> OnlyCellChanged(s, r.value, VarAddress(s, l, m).value) &&
                           r.value.pas[VarAddress(s, l, m).value] == s.pas[s.sp]
    ensures r.Success? <==> VarAddress(s, l, m).Success? && InMem(s.sp)
  {
    var a :- VarAddress(s, l, m);
    if !InMem(s.sp) then Failure(BadAddress(s.sp))
    else Success(s.(pas := s.pas[a := s.pas[s.sp]], sp := s.sp + 1))
  }

  /** CAL: write the static link, the dynamic link and the return address
      just below sp, make that the new frame, and jump to m. */
  function Call(s: Vm, l: int, m: int): (r: Result<Vm, Fault>)
    requires |s.pas| == MemSize
    ensures r.Success? ==> Quiet(s, r.value) && r.value.sp == s.sp
    ensures r.Success? ==> InMem(s.sp - 1) && InMem(s.sp - 3)
    ensures r.Success? ==> r.value.bp == s.sp - 1 && r.value.pc == m
    ensures r.Success? ==> Base(s.pas, s.bp, l).Success? &&
                           r.value.pas == s.pas[s.sp - 1 := Base(s.pas, s.bp, l).value]
                                               [s.sp - 2 := s.bp][s.sp - 3 := s.pc]
    ensures r.Success? <==> Base(s.pas, s.bp, l).Success? && InMem(s.sp - 1) && InMem(s.sp - 2) && InMem(s.sp - 3)
  {
    var b :- Base(s.pas, s.bp, l);
    if !InMem(s.sp - 1) then Failure(BadAddress(s.sp - 1))
    else if !InMem(s.sp - 2) then Failure(BadAddress(s.sp - 2))
    else if !InMem(s.sp - 3) then Failure(BadAddress(s.sp - 3))
    else Success(s.(pas := s.pas[s.sp - 1 := b][s.sp - 2 := s.bp][s.sp - 3 := s.pc],
                    bp := s.sp - 1, pc := m))
  }

  /** LIT: push m. */
  function Literal(s: Vm, m: int): (r: Result<Vm, Fault>)
    requires |s.pas| == MemSize
    ensures r.Success? <==> InMem(s.sp - 1)
    ensures r.Success? ==> Quiet(s, r.value) && r.value.pc == s.pc && r.value.bp == s.bp
    ensures r.Success? ==> r.value.sp == s.sp - 1 && OnlyCellChanged(s, r.value, s.sp - 1) && r.value.pas[s.sp - 1] == m
  {
    if !InMem(s.sp - 1) then Failure(BadAddress(s.sp - 1))
    else Success(s.(sp := s.sp - 1, pas := s.pas[s.sp - 1 := m]))
  }

  /** JPC: pop the top and jump to m when it was 0. */
  function JumpIfZero(s: Vm, m: int): (r: Result<Vm, Fault>)
    requires |s.pas| == MemSize
    ensures r.Success? <==> InMem(s.sp)
    ensures r.Success? ==> Quiet(s, r.value) && r.value.pas == s.pas && r.value.bp == s.bp && r.value.sp == s.sp + 1
    ensures r.Success? && s.pas[s.sp] == 0 ==> r.value.pc == m
    ensures r.Success? && s.pas[s.sp] != 0 ==> r.value.pc == s.pc
  {
    if !InMem(s.sp) then Failure(BadAddress(s.sp))
    else Success(s.(pc := if s.pas[s.sp] == 0 then m else s.pc, sp := s.sp + 1))
  }

  /** SYS 1 writes and pops the top, SYS 2 reads and pushes, SYS 3 halts;
      any other modifier does nothing. */
  function System(s: Vm, m: int): (r: Result<Vm, Fault>)
    requires |s.pas| == MemSize
    ensures r.Success? ==> r.value.pc == s.pc && r.value.bp == s.bp
    ensures m == 1 ==> (r.Success? <==> InMem(s.sp))
    ensures m == 2 ==> (r.Success? <==> |s.input| > 0 && InMem(s.sp - 1) && Fits(s.input[0]))
    ensures m == 1 && r.Success? ==> InMem(s.sp) && r.value == s.(output := s.output + [s.pas[s.sp]], sp := s.sp + 1)
    ensures m == 2 && s.input == [] ==> r == Failure(NoInput)
    ensures m == 2 && r.Success? ==> |s.input| > 0 && r.value.input == s.input[1..] && r.value.output == s.output &&
                                     InMem(s.sp - 1) && r.value.sp == s.sp - 1 && r.value.running == s.running &&
                                     OnlyCellChanged(s, r.value, s.sp - 1) && r.value.pas[s.sp - 1] == s.input[0]
    ensures m == 3 ==> r == Success(s.(running := false))
    ensures !(1 <= m <= 3) ==> r == Success(s)
  {
    if m == 1 then
      if !InMem(s.sp) then Failure(BadAddress(s.sp))
      else Success(s.(output := s.output + [s.pas[s.sp]], sp := s.sp + 1))
    else if m == 2 then
      if s.input == [] then Failure(NoInput)
      else if !InMem(s.sp - 1) then Failure(BadAddress(s.sp - 1))
      else if !Fits(s.input[0]) then Failure(Overflow)
      else Success(s.(pas := s.pas[s.sp - 1 := s.input[0]], sp := s.sp - 1, input := s.input[1..]))
    else if m == 3 then Success(s.(running := false))
    else Success(s)
  }

  /** The execute half of the loop body; pc has already moved past the
      instruction. An opcode the switch does not list does nothing. */
  function Execute(s: Vm, ir: Instruction): (r: Result<Vm, Fault>)
    requires |s.pas| == MemSize
    ensures r.Success? ==> |r.value.pas| == MemSize
    ensures r.Failure? && r.error.BadAddress? ==> !InMem(r.error.addr)
    ensures !(1 <= ir.op <= 9) ==> r == Success(s)
    ensures ir.op == JMP ==> r == Success(s.(pc := ir.m))
  {
    if ir.op == INC then Inc(s, ir.m)
    else if ir.op == OPR then Operate(s, ir.m)
    else if ir.op == LOD then Load(s, ir.l, ir.m)
    else if ir.op == STO then Store(s, ir.l, ir.m)
    else if ir.op == CAL then Call(s, ir.l, ir.m)
    else if ir.op == LIT then Literal(s, ir.m)
    else if ir.op == JMP then Success(s.(pc := ir.m))
    else if ir.op == JPC then JumpIfZero(s, ir.m)
    else if ir.op == SYS then System(s, ir.m)
    else Success(s)
  }

  /** Input is consumed from the front and output only grows, by at most
      one value a step. */
  predicate ConsoleStep(s: Vm, r: Vm) {
    s.output <= r.output && |r.output| <= |s.output| + 1 &&
    (r.input == s.input || (|s.input| > 0 && r.input == s.input[1..]))
  }

  /** Executing one instruction keeps every cell and register an `int`. */
  lemma ExecuteKeepsInvariant(s: Vm, ir: Instruction)
    requires Invariant(s) && Fits(ir.l) && Fits(ir.m)
    ensures Execute(s, ir).Success? ==> Invariant(Execute(s, ir).value)
    ensures Execute(s, ir).Success? ==> ConsoleStep(s, Execute(s, ir).value)
  {
    var r := Execute(s, ir);
    if r.Success? {
      var t := r.value;
      if ir.op == OPR && 1 <= ir.m <= 11 {
        assert Fits(t.pas[s.sp + 1]);
      } else if ir.op == CAL {
        assert Fits(Base(s.pas, s.bp, ir.l).value);
      } else if ir.op == SYS && ir.m == 2 {
        assert Fits(s.input[0]);
      }
      assert AllFit(t.pas);
    }
  }

  /** One turn of the loop: fetch the three cells at pc, advance pc by
      three, execute. */
  function Step(s: Vm): (r: Result<Vm, Fault>)
    requires |s.pas| == MemSize
    ensures r.Success? ==> |r.value.pas| == MemSize
    ensures !(0 <= s.pc && s.pc + 2 < MemSize) <==> r == Failure(BadAddress(s.pc))
  {
    if !(0 <= s.pc && s.pc + 2 < MemSize) then Failure(BadAddress(s.pc))
    else
      Execute(s.(pc := s.pc + 3), Fetch(s.pas, s.pc))
  }

  /** A step from a state the C program could be in leads to one again,
      consuming input from the front and appending to output. */
  lemma StepKeepsInvariant(s: Vm)
    requires |s.pas| == MemSize
    ensures Invariant(s) && Step(s).Success? ==> Invariant(Step(s).value) && ConsoleStep(s, Step(s).value)
  {
    if Invariant(s) && 0 <= s.pc && s.pc + 2 < MemSize {
      var ir := Fetch(s.pas, s.pc);
      assert Fits(s.pas[s.pc + 1]) && Fits(s.pas[s.pc + 2]);
      var s' := s.(pc := s.pc + 3);
      assert Invariant(s');
      ExecuteKeepsInvariant(s', ir);
      assert Step(s) == Execute(s', ir);
    }
  }

  /** Run at most `fuel` instructions, stopping early once halted. */
  function Run(s: Vm, fuel: nat): (r: Result<Vm, Fault>)
    requires |s.pas| == MemSize
    decreases fuel
    ensures r.Success? ==> |r.value.pas| == MemSize
    ensures r.Success? && Invariant(s) ==> Invariant(r.value)
    ensures r.Success? && Invariant(s) ==> ConsoleLater(s, r.value)
    ensures !s.running ==> r == Success(s)
  {
    if fuel == 0 || !s.running then Success(s)
    else
      var t :- Step(s);
      StepKeepsInvariant(s);
      var u :- Run(t, fuel - 1);
      ConsoleTrans(s, t, u);
      Success(u)
  }

  /** Output kept as a prefix of all later output, and input left as a
      suffix of the input before. */
  predicate ConsoleLater(s: Vm, r: Vm) {
    s.output <= r.output && |r.input| <= |s.input| && r.input == s.input[|s.input| - |r.input|..]
  }

  lemma ConsoleTrans(s: Vm, t: Vm, u: Vm)
    requires Invariant(s) ==> Invariant(t) && ConsoleStep(s, t)
    requires Invariant(t) ==> ConsoleLater(t, u)
    ensures Invariant(s) ==> ConsoleLater(s, u)
  {
  }

  /** Running a steps and then b more is running a + b steps. */
  lemma {:induction false} RunCompose(s: Vm, a: nat, b: nat)
    requires |s.pas| == MemSize
    ensures Run(s, a + b) ==
              (match Run(s, a)
               case Success(t) => Run(t, b)
               case Failure(e) => Failure(e))
    decreases a
  {
    if a > 0 && s.running {
      var st := Step(s);
      if st.Success? {
        RunCompose(st.value, a - 1, b);
        assert a + b - 1 == (a - 1) + b;
      }
    }
  }

  /** A halted machine stays as it is, however long it is run. */
  lemma {:induction false} RunAfterHalt(s: Vm, a: nat, b: nat)
    requires |s.pas| == MemSize
    requires Run(s, a).Success? && !Run(s, a).value.running
    ensures Run(s, a + b) == Run(s, a)
  {
    RunCompose(s, a, b);
  }

  /** A call followed, in the callee's frame, by a return instruction
      comes back to the instruction after the call with the caller's bp
      and sp, provided the callee left the frame's link cells alone. */
  lemma CallThenReturn(s: Vm, v: Vm)
    requires |s.pas| == MemSize && 0 <= s.pc && s.pc + 2 < MemSize
    requires Fetch(s.pas, s.pc).op == CAL && Step(s).Success?
    requires |v.pas| == MemSize && v.bp == Step(s).value.bp
    requires v.pas[v.bp - 1] == Step(s).value.pas[v.bp - 1]
    requires v.pas[v.bp - 2] == Step(s).value.pas[v.bp - 2]
    requires 0 <= v.pc && v.pc + 2 < MemSize && Fetch(v.pas, v.pc) == Instruction(OPR, 0, 0)
    ensures Step(v).Success?
    ensures Step(v).value.pc == s.pc + 3 && Step(v).value.bp == s.bp && Step(v).value.sp == s.sp
  {
    var ir := Fetch(s.pas, s.pc);
    var t := Step(s).value;
    assert t == Call(s.(pc := s.pc + 3), ir.l, ir.m).value;
    assert InMem(v.bp - 1) && InMem(v.bp - 2);
  }

  /** An opcode outside 1..9, an OPR code outside 0..12 and a SYS
      modifier outside 1..3 only move pc past the instruction. */
  lemma UnlistedInstruction(s: Vm)
    requires |s.pas| == MemSize && 0 <= s.pc && s.pc + 2 < MemSize
    requires !(1 <= s.pas[s.pc] <= 9) ||
             (s.pas[s.pc] == OPR && !(0 <= s.pas[s.pc + 2] <= 12)) ||
             (s.pas[s.pc] == SYS && !(1 <= s.pas[s.pc + 2] <= 3))
    ensures Step(s) == Success(s.(pc := s.pc + 3))
  {
  }

  /** JMP sets pc to m. */
  lemma JumpStep(s: Vm)
    requires |s.pas| == MemSize && 0 <= s.pc && s.pc + 2 < MemSize
    requires s.pas[s.pc] == JMP
    ensures Step(s) == Success(s.(pc := s.pas[s.pc + 2]))
  {
  }

  /** SYS 3 clears the flag, and the loop then stops. */
  lemma HaltStops(s: Vm, fuel: nat)
    requires |s.pas| == MemSize && 0 <= s.pc && s.pc + 2 < MemSize && s.running
    requires Fetch(s.pas, s.pc) == Instruction(SYS, 0, 3) && fuel >= 1
    ensures Run(s, fuel) == Success(s.(pc := s.pc + 3, running := false))
  {
    var t := s.(pc := s.pc + 3, running := false);
    assert Step(s) == Success(t);
    assert Run(t, fuel - 1) == Success(t);
  }

  /** The program's three numbers per instruction fit the cells from
      `CodeStart` up, and each is an `int`. */
  predicate Loadable(prog: seq<Instruction>) {
    CodeStart + 3 * |prog| <= MemSize &&
    forall i :: 0 <= i < |prog| ==> Fits(prog[i].op) && Fits(prog[i].l) && Fits(prog[i].m)
  }

  /** Place the program from cell 10 on, three cells per instruction, and
      set the initial registers: pc 10, bp 499, sp 500. A program too long
      for the array writes past its end, which C leaves undefined. */
  method LoadProgram(prog: seq<Instruction>, input: seq<int>) returns (r: Result<Vm, Fault>)
    ensures r.Success? <==> Loadable(prog)
    ensures r.Success? ==> Invariant(r.value)
    ensures r.Success? ==> r.value.pc == CodeStart && r.value.bp == MemSize - 1 && r.value.sp == MemSize
    ensures r.Success? ==> r.value.running && r.value.input == input && r.value.output == []
    ensures r.Success? ==> forall i :: 0 <= i < |prog| ==> Fetch(r.value.pas, CodeStart + 3 * i) == prog[i]
    ensures r.Success? ==> forall a :: 0 <= a < MemSize && !(CodeStart <= a < CodeStart + 3 * |prog|) ==>
                                         r.value.pas[a] == 0
  {
    if CodeStart + 3 * |prog| > MemSize {
      return Failure(BadAddress(MemSize));
    }
    if !Loadable(prog) {
      return Failure(Overflow);
    }
    var pas := seq(MemSize, _ => 0);
    var i := 0;
    while i < |prog|
      invariant 0 <= i <= |prog|
      invariant |pas| == MemSize && AllFit(pas)
      invariant forall j :: 0 <= j < i ==> Fetch(pas, CodeStart + 3 * j) == prog[j]
      invariant forall a :: 0 <= a < MemSize && !(CodeStart <= a < CodeStart + 3 * i) ==> pas[a] == 0
    {
      var at := CodeStart + 3 * i;
      pas := pas[at := prog[i].op][at + 1 := prog[i].l][at + 2 := prog[i].m];
      i := i + 1;
    }
    return Success(Vm(pas, CodeStart, MemSize - 1, MemSize, true, input, []));
  }

  /** Fetching from a loaded program returns its instructions in order. */
  lemma LoadedFetch(prog: seq<Instruction>, input: seq<int>, s: Vm, i: nat)
    requires Loadable(prog) && i < |prog|
    requires Invariant(s) && forall k :: 0 <= k < |prog| ==> Fetch(s.pas, CodeStart + 3 * k) == prog[k]
    requires s.pc == CodeStart + 3 * i
    ensures Step(s) == Execute(s.(pc := s.pc + 3), prog[i])
  {
  }

  /** `LIT 0 5; SYS 0 1; SYS 0 3` writes 5 and halts with the stack empty. */
  lemma WriteLiteral(s: Vm, fuel: nat)
    requires |s.pas| == MemSize && s.running && s.pc == CodeStart && s.sp == MemSize
    requires Fetch(s.pas, 10) == Instruction(LIT, 0, 5)
    requires Fetch(s.pas, 13) == Instruction(SYS, 0, 1)
    requires Fetch(s.pas, 16) == Instruction(SYS, 0, 3)
    requires fuel >= 3
    ensures Run(s, fuel).Success?
    ensures Run(s, fuel).value.output == s.output + [5]
    ensures !Run(s, fuel).value.running && Run(s, fuel).value.sp == MemSize
  {
    var s1 := s.(pc := 13, sp := 499, pas := s.pas[499 := 5]);
    var s2 := s1.(pc := 16, sp := 500, output := s.output + [5]);
    var s3 := s2.(pc := 19, running := false);
    assert Run(s, fuel) == Run(s1, fuel - 1) by {
      WriteLiteralFirst(s);
      RunStep(s, s1, fuel);
    }
    assert Run(s1, fuel - 1) == Run(s2, fuel - 2) by {
      WriteLiteralSecond(s, s1);
      RunStep(s1, s2, fuel - 1);
    }
    assert Run(s2, fuel - 2) == Success(s3) by {
      WriteLiteralThird(s2);
      RunStep(s2, s3, fuel - 2);
    }
  }

  /** A turn that succeeds, followed by the rest of the fuel. */
  lemma RunStep(s: Vm, t: Vm, fuel: nat)
    requires |s.pas| == MemSize && s.running && fuel >= 1 && Step(s) == Success(t)
    ensures |t.pas| == MemSize && Run(s, fuel) == Run(t, fuel - 1)
  {
    RunCompose(s, 1, fuel - 1);
  }

  /** The first turn of `WriteLiteral`: `LIT 0 5` pushes 5. */
  lemma WriteLiteralFirst(s: Vm)
    requires |s.pas| == MemSize && s.running && s.pc == CodeStart && s.sp == MemSize
    requires Fetch(s.pas, 10) == Instruction(LIT, 0, 5)
    ensures Step(s) == Success(s.(pc := 13, sp := 499, pas := s.pas[499 := 5]))
  {
  }

  /** The second turn of `WriteLiteral`: `SYS 0 1` pops 5 and writes it. */
  lemma WriteLiteralSecond(s: Vm, s1: Vm)
    requires |s.pas| == MemSize && s.running && s.sp == MemSize
    requires s1 == s.(pc := 13, sp := 499, pas := s.pas[499 := 5])
    requires Fetch(s.pas, 13) == Instruction(SYS, 0, 1)
    ensures Step(s1) == Success(s1.(pc := 16, sp := 500, output := s.output + [5]))
  {
  }

  /** The third turn of `WriteLiteral`: `SYS 0 3` clears the running flag. */
  lemma WriteLiteralThird(s2: Vm)
    requires |s2.pas| == MemSize && s2.running && s2.pc == 16
    requires Fetch(s2.pas, 16) == Instruction(SYS, 0, 3)
    ensures Step(s2) == Success(s2.(pc := 19, running := false))
  {
  }
}

=== FILE: pipeline.dfy ===
/** The compiler's driver without its file handling and listings: scan the
    text, and parse only when the scan recorded nothing. Also a few small
    programs compiled by hand, showing how the parser behaves as written. */
module Pipeline {

  import opened Results
  import opened Tokens
  import Lexer
  import SourceLines
  import opened SymbolTable
  import opened Codegen

  datatype CompileFailure = LexicalErrors(errors: seq<Lexer.LexError>) | ParseError(error: CompileError)

  /** Scan, then compile; a lexical error stops before parsing. */
  function Compile(text: string): (r: Result<seq<Instr>, CompileFailure>)
    ensures (r.Failure? && r.error.LexicalErrors?) <==> Lexer.HasLexError(SourceLines.Lines(text))
    ensures r.Success? ==> 2 <= |r.value| <= CodeSize
    ensures r.Success? ==> r.value[0] == Instr(JMP, 0, 1) && r.value[|r.value| - 1] == Instr(SYS, 0, 3)
    ensures r.Success? ==> forall i :: 0 <= i < |r.value| ==> r.value[i].l >= 0
  {
    match Lexer.Tokenize(text)
    case Failure(errs) => Failure(LexicalErrors(errs))
    case Success(toks) =>
      match Program(toks)
      case Failure(e) => Failure(ParseError(e))
      case Success(st) => Success(st.code)
  }

  /** A block that starts with no declaration keyword declares nothing. */
  lemma NoDeclarations(st: Compiler)
    requires Cur(st).kind !in {Const, Var, Procedure}
    ensures Declarations(st) == Success((st, 0))
  {
    assert ConstDecl(st) == Success(st);
    assert VarDecl(st) == Success((st, 0));
    assert ProcDecls(st) == Success(st);
  }

  /** "." compiles to the leading jump, the frame and the halt. */
  lemma SmallestProgram()
    ensures Program([Token(Period, "", 1)]).Success?
    ensures Program([Token(Period, "", 1)]).value.code == [Instr(JMP, 0, 1), Instr(INC, 0, 3), Instr(SYS, 0, 3)]
  {
    var toks := [Token(Period, "", 1)];
    var st0 := Compiler(toks, 0, 0, [], [Instr(JMP, 0, 0)]);
    var st1 := st0.(code := [Instr(JMP, 0, 1)]);
    assert EntryCode(st0) == st1.code;
    NoDeclarations(st1);
    var st2 := st1.(code := st1.code + [Instr(INC, 0, 3)]);
    assert Statement(st2) == Success(st2);
    assert Block(st0) == Success(st2);
  }

  const WriteX: seq<Token> := [Token(Write, "", 1), Token(Ident, "x", 1), Token(Period, "", 1)]

  lemma WriteXBody()
    ensures Statement(Compiler(WriteX, 0, 0, [], [Instr(JMP, 0, 1), Instr(INC, 0, 3)])) ==
            Success(Compiler(WriteX, 1, 0, [], [Instr(JMP, 0, 1), Instr(INC, 0, 3), Instr(SYS, 0, 2)]))
  {
    var st := Compiler(WriteX, 0, 0, [], [Instr(JMP, 0, 1), Instr(INC, 0, 3)]);
    var st1 := Advance(st);
    assert Cur(st1).kind == Ident;
    assert Expression(st1) == Success(st1);
    assert st1.code + [Instr(SYS, 0, 2)] == [Instr(JMP, 0, 1), Instr(INC, 0, 3), Instr(SYS, 0, 2)];
  }

  /** An expression has no leading term, so `write x.` compiles without
      looking `x` up: no operand is pushed for the output instruction, the
      `x` is never read, and the final period check looks only at the last
      token of the list. */
  lemma WriteWithoutLeadingSign()
    ensures Program(WriteX).Success?
    ensures Program(WriteX).value.code ==
              [Instr(JMP, 0, 1), Instr(INC, 0, 3), Instr(SYS, 0, 2), Instr(SYS, 0, 3)]
  {
    var st0 := Compiler(WriteX, 0, 0, [], [Instr(JMP, 0, 0)]);
    var st1 := st0.(code := [Instr(JMP, 0, 1)]);
    assert EntryCode(st0) == st1.code;
    NoDeclarations(st1);
    assert st1.code + [Instr(INC, 0, 3)] == [Instr(JMP, 0, 1), Instr(INC, 0, 3)];
    WriteXBody();
    var code := [Instr(JMP, 0, 1), Instr(INC, 0, 3), Instr(SYS, 0, 2)];
    assert Block(st0) == Success(Compiler(WriteX, 1, 0, [], code));
    assert code + [Instr(SYS, 0, 3)] == [Instr(JMP, 0, 1), Instr(INC, 0, 3), Instr(SYS, 0, 2), Instr(SYS, 0, 3)];
  }

  const WritePlusX: seq<Token> :=
    [Token(Write, "", 1), Token(Plus, "", 1), Token(Ident, "x", 1), Token(Period, "", 1)]

  lemma WritePlusXBody()
    ensures Statement(Compiler(WritePlusX, 0, 0, [], [Instr(JMP, 0, 1), Instr(INC, 0, 3)])) == Failure(Syntax(11))
  {
    var st := Compiler(WritePlusX, 0, 0, [], [Instr(JMP, 0, 1), Instr(INC, 0, 3)]);
    var st1 := Advance(st);
    var st2 := Advance(st1);
    assert Cur(st1).kind == Plus;
    assert Cur(st2) == Token(Ident, "x", 1);
    assert Factor(st2) == Failure(Syntax(11));
    assert Term(st2) == Failure(Syntax(11));
    assert Expression(st1) == Failure(Syntax(11));
    assert WriteStatement(st) == Failure(Syntax(11));
  }

  /** With the sign the identifier is parsed, and an undeclared one is
      error 11. */
  lemma WriteSignedUndeclared()
    ensures Program(WritePlusX) == Failure(Syntax(11))
  {
    var st0 := Compiler(WritePlusX, 0, 0, [], [Instr(JMP, 0, 0)]);
    var st1 := st0.(code := [Instr(JMP, 0, 1)]);
    assert EntryCode(st0) == st1.code;
    NoDeclarations(st1);
    assert st1.code + [Instr(INC, 0, 3)] == [Instr(JMP, 0, 1), Instr(INC, 0, 3)];
    WritePlusXBody();
    assert Block(st0) == Failure(Syntax(11));
  }

  /** `procedure p; call p; call p.` */
  const CallTwice: seq<Token> :=
    [Token(Procedure, "", 1), Token(Ident, "p", 1), Token(Semicolon, "", 1),
     Token(Call, "", 2), Token(Ident, "p", 2), Token(Semicolon, "", 2),
     Token(Call, "", 3), Token(Ident, "p", 3), Token(Period, "", 3)]

  const ProcP: Symbol := Symbol(ProcSym, "p", 0, 0, 1, false)

  /** The procedure body: a call of p from level 1 uses the entry's first
      address, the index where the body starts. */
  lemma CallTwiceInner()
    ensures Block(Compiler(CallTwice, 3, 1, [ProcP], [Instr(JMP, 0, 1)])) ==
            Success(Compiler(CallTwice, 5, 1, [ProcP], [Instr(JMP, 0, 1), Instr(INC, 0, 3), Instr(CAL, 1, 1)]))
  {
    var st := Compiler(CallTwice, 3, 1, [ProcP], [Instr(JMP, 0, 1)]);
    assert EntryCode(st) == st.code;
    NoDeclarations(st);
    var st1 := st.(code := [Instr(JMP, 0, 1), Instr(INC, 0, 3)]);
    assert st.code + [Instr(INC, 0, 3)] == st1.code;
    assert Cur(Advance(st1)) == Token(Ident, "p", 2);
    assert FindSymbol([ProcP], "p", 1) == 0;
    assert st1.code + [Instr(CAL, 1, 1)] == [Instr(JMP, 0, 1), Instr(INC, 0, 3), Instr(CAL, 1, 1)];
    assert Statement(st1) == Success(Compiler(CallTwice, 5, 1, [ProcP], [Instr(JMP, 0, 1), Instr(INC, 0, 3), Instr(CAL, 1, 1)]));
    assert MarkScope([ProcP], 1, 1) == [ProcP];
  }

  lemma CallTwiceDeclaration()
    ensures ProcDecl(Compiler(CallTwice, 0, 0, [], [Instr(JMP, 0, 1)])) ==
            Success(Compiler(CallTwice, 6, 0, [ProcP.(addr := 4)],
                             [Instr(JMP, 0, 1), Instr(INC, 0, 3), Instr(CAL, 1, 1), Instr(OPR, 0, 0)]))
  {
    var st := Compiler(CallTwice, 0, 0, [], [Instr(JMP, 0, 1)]);
    assert Cur(Advance(st)) == Token(Ident, "p", 1);
    assert FindSymbol([], "p", 0) == -1;
    assert st.syms + [ProcP] == [ProcP];
    var st2 := Compiler(CallTwice, 2, 0, [ProcP], [Instr(JMP, 0, 1)]);
    assert Advance(Advance(st).(syms := st.syms + [ProcP])) == st2;
    assert Cur(st2).kind == Semicolon;
    CallTwiceBody();
  }

  /** After `procedure p;`: the body, the return, and the entry's address
      overwritten with 4, the index past that return. */
  lemma CallTwiceBody()
    ensures ProcDeclBody(Compiler(CallTwice, 0, 0, [], [Instr(JMP, 0, 1)]), ProcP,
                         Compiler(CallTwice, 2, 0, [ProcP], [Instr(JMP, 0, 1)])) ==
            Success(Compiler(CallTwice, 6, 0, [ProcP.(addr := 4)],
                             [Instr(JMP, 0, 1), Instr(INC, 0, 3), Instr(CAL, 1, 1), Instr(OPR, 0, 0)]))
  {
    var st := Compiler(CallTwice, 0, 0, [], [Instr(JMP, 0, 1)]);
    var st2 := Compiler(CallTwice, 2, 0, [ProcP], [Instr(JMP, 0, 1)]);
    var code := [Instr(JMP, 0, 1), Instr(INC, 0, 3), Instr(CAL, 1, 1)];
    assert Advance(st2).(level := 1) == Compiler(CallTwice, 3, 1, [ProcP], [Instr(JMP, 0, 1)]);
    CallTwiceInner();
    var st3 := Compiler(CallTwice, 5, 1, [ProcP], code);
    var st4 := Compiler(CallTwice, 5, 0, [ProcP], code + [Instr(OPR, 0, 0)]);
    assert Emit(st3.(level := 0), OPR, 0, 0) == Success(st4);
    assert Cur(st4).kind == Semicolon;
    assert code + [Instr(OPR, 0, 0)] == [Instr(JMP, 0, 1), Instr(INC, 0, 3), Instr(CAL, 1, 1), Instr(OPR, 0, 0)];
    assert [ProcP][0 := ProcP.(addr := 4)] == [ProcP.(addr := 4)];
    assert ProcClosed(st, ProcP, st4) ==
           Compiler(CallTwice, 6, 0, [ProcP.(addr := 4)], [Instr(JMP, 0, 1), Instr(INC, 0, 3), Instr(CAL, 1, 1), Instr(OPR, 0, 0)]);
  }

  /** The main block: a call of p from level 0 uses the overwritten
      address, the index past p's return, while the call inside p's body
      (`CallTwiceInner`) used the index where that body starts. */
  lemma CallTwiceOuter()
    ensures Statement(Compiler(CallTwice, 6, 0, [ProcP.(addr := 4)],
                               [Instr(JMP, 0, 1), Instr(INC, 0, 3), Instr(CAL, 1, 1), Instr(OPR, 0, 0), Instr(INC, 0, 3)])) ==
            Success(Compiler(CallTwice, 8, 0, [ProcP.(addr := 4)],
                             [Instr(JMP, 0, 1), Instr(INC, 0, 3), Instr(CAL, 1, 1), Instr(OPR, 0, 0), Instr(INC, 0, 3),
                              Instr(CAL, 0, 4)]))
  {
    var code := [Instr(JMP, 0, 1), Instr(INC, 0, 3), Instr(CAL, 1, 1), Instr(OPR, 0, 0), Instr(INC, 0, 3)];
    var st := Compiler(CallTwice, 6, 0, [ProcP.(addr := 4)], code);
    assert Cur(Advance(st)) == Token(Ident, "p", 3);
    assert FindSymbol([ProcP.(addr := 4)], "p", 0) == 0;
    assert code + [Instr(CAL, 0, 4)] ==
           [Instr(JMP, 0, 1), Instr(INC, 0, 3), Instr(CAL, 1, 1), Instr(OPR, 0, 0), Instr(INC, 0, 3), Instr(CAL, 0, 4)];
  }

  lemma CallTwiceDeclarations()
    ensures Declarations(Compiler(CallTwice, 0, 0, [], [Instr(JMP, 0, 1)])) ==
            Success((Compiler(CallTwice, 6, 0, [ProcP.(addr := 4)],
                              [Instr(JMP, 0, 1), Instr(INC, 0, 3), Instr(CAL, 1, 1), Instr(OPR, 0, 0)]), 0))
  {
    var st1 := Compiler(CallTwice, 0, 0, [], [Instr(JMP, 0, 1)]);
    var st2 := Compiler(CallTwice, 6, 0, [ProcP.(addr := 4)],
                        [Instr(JMP, 0, 1), Instr(INC, 0, 3), Instr(CAL, 1, 1), Instr(OPR, 0, 0)]);
    CallTwiceDeclaration();
    assert Cur(st1).kind == Procedure && Cur(st2).kind == Call;
    assert ProcDecls(st2) == Success(st2);
    assert ProcDecls(st1) == Success(st2);
    assert ConstDecl(st1) == Success(st1);
    assert VarDecl(st1) == Success((st1, 0));
  }
}

=== FILE: results.dfy ===
/** Failure-compatible wrappers shared by the lexer, the code generator and
    the machine. */
module Results {

  datatype Option<+T> = None | Some(value: T)

  /** Either a value or the reason the computation stopped. */
  datatype Result<+T, +E> = Success(value: T) | Failure(error: E) {

    predicate IsFailure() {
      Failure?
    }

    function PropagateFailure<U>(): Result<U, E>
      requires Failure?
    {
      Failure(error)
    }

    function Extract(): T
      requires Success?
    {
      value
    }
  }
}

=== FILE: source_lines.dfy ===
/** How the lexer receives its text: the source file is read by repeated
    `fgets` into a 256-byte buffer, so each piece is one line including its
    newline, or the first 255 characters of a longer line. */
module SourceLines {

  /** Characters one `fgets` call can deliver into the buffer. */
  const ChunkLimit: nat := 255

  predicate EndsChunk(text: string, k: nat)
    requires 0 < k <= |text|
  {
    k == |text| || k == ChunkLimit || text[k - 1] == '\n'
  }

  /** Length of the piece the next `fgets` call returns, looking from
      position k onward. */
  function ChunkEnd(text: string, k: nat): (e: nat)
    requires 0 < k <= |text| && k <= ChunkLimit
    requires forall i :: 0 < i < k ==> !EndsChunk(text, i)
    decreases |text| - k
    ensures k <= e <= |text| && e <= ChunkLimit
    ensures EndsChunk(text, e)
    ensures forall i :: 0 < i < e ==> !EndsChunk(text, i)
  {
    if EndsChunk(text, k) then k else ChunkEnd(text, k + 1)
  }

  /** The pieces successive `fgets` calls deliver, in order. */
  function Lines(text: string): (lines: seq<string>)
    decreases |text|
    ensures forall i :: 0 <= i < |lines| ==> 0 < |lines[i]| <= ChunkLimit
  {
    if text == [] then []
    else
      var e := ChunkEnd(text, 1);
      [text[..e]] + Lines(text[e..])
  }

  function Concat(lines: seq<string>): string {
    if lines == [] then [] else lines[0] + Concat(lines[1..])
  }

  /** Reading the pieces back to back gives the file again. */
  lemma {:induction false} LinesCoverText(text: string)
    ensures Concat(Lines(text)) == text
    decreases |text|
  {
    if text != [] {
      var e := ChunkEnd(text, 1);
      LinesCoverText(text[e..]);
      assert Lines(text)[1..] == Lines(text[e..]);
      assert text[..e] + text[e..] == text;
    }
  }

  /** A newline only ever closes a piece, and a piece without a newline is
      either full or the end of the file. */
  lemma {:induction false} LinesBreakAtNewlines(text: string)
    ensures forall i, j :: 0 <= i < |Lines(text)| && 0 <= j < |Lines(text)[i]| - 1 ==>
              Lines(text)[i][j] != '\n'
    ensures forall i :: 0 <= i < |Lines(text)| - 1 ==>
              Lines(text)[i][|Lines(text)[i]| - 1] == '\n' || |Lines(text)[i]| == ChunkLimit
    decreases |text|
  {
    if text != [] {
      var e := ChunkEnd(text, 1);
      LinesBreakAtNewlines(text[e..]);
      var ls := Lines(text);
      assert ls[1..] == Lines(text[e..]);
      forall j | 0 <= j < e - 1 ensures ls[0][j] != '\n' {
        assert !EndsChunk(text, j + 1);
      }
      if |ls| > 1 {
        assert e < |text|;
      }
    }
  }

  /** A line of at most 255 characters that ends in a newline is delivered
      whole, ahead of whatever follows it. */
  lemma LinesOfNewlineTerminated(line: string, rest: string)
    requires 0 < |line| <= ChunkLimit && line[|line| - 1] == '\n'
    requires forall j :: 0 <= j < |line| - 1 ==> line[j] != '\n'
    ensures Lines(line + rest) == [line] + Lines(rest)
  {
    var text := line + rest;
    forall i | 0 < i < |line| ensures !EndsChunk(text, i) {
      assert text[i - 1] == line[i - 1];
    }
    assert EndsChunk(text, |line|);
    var e := ChunkEnd(text, 1);
    assert e == |line|;
    assert text[..e] == line;
    assert text[e..] == rest;
  }
}

=== FILE: symbols.dfy ===
/** The compiler's symbol table (hw4compiler.c, `symbol_table`,
    `find_symbol`): an append-only list of declarations in which a symbol
    leaves scope by being marked, never by being removed. */
module SymbolTable {

  /** Constants, variables and procedures (kinds 1, 2 and 3 in the source). */
  datatype SymbolKind = ConstSym | VarSym | ProcSym

  /** A declaration: its kind, name, value (constants), the lexical level it
      was declared at, its address (a frame offset for variables, a code
      index for procedures, 0 for constants) and whether it has left scope. */
  datatype Symbol = Symbol(kind: SymbolKind, name: string, val: int, level: nat, addr: int, marked: bool)

  /** The entry answers a lookup of name from lexical level `level`: it is
      still in scope, has that name, and was declared at that level or an
      enclosing one. */
  predicate Resolves(s: Symbol, name: string, level: int) {
    !s.marked && s.name == name && s.level <= level
  }

  predicate Visible(syms: seq<Symbol>, name: string, level: int) {
    exists i :: 0 <= i < |syms| && Resolves(syms[i], name, level)
  }

  /** The backward scan over the first n entries. */
  function FindBelow(syms: seq<Symbol>, name: string, level: int, n: nat): (r: int)
    requires n <= |syms|
    ensures -1 <= r < n
    ensures r == -1 <==> forall j :: 0 <= j < n ==> !Resolves(syms[j], name, level)
    ensures r >= 0 ==> Resolves(syms[r], name, level) &&
                       forall j :: r < j < n ==> !Resolves(syms[j], name, level)
  {
    if n == 0 then -1
    else if Resolves(syms[n - 1], name, level) then n - 1
    else FindBelow(syms, name, level, n - 1)
  }

  /** `find_symbol`: the most recent entry that answers the lookup, or -1
      when none does. */
  function FindSymbol(syms: seq<Symbol>, name: string, level: int): (r: int)
    ensures -1 <= r < |syms|
    ensures r == -1 <==> !Visible(syms, name, level)
    ensures r >= 0 ==> Resolves(syms[r], name, level) &&
                       forall j :: r < j < |syms| ==> !Resolves(syms[j], name, level)
  {
    FindBelow(syms, name, level, |syms|)
  }

  /** No two entries still in scope share a name, and none of them was
      declared deeper than `level`. */
  predicate ScopeInvariant(syms: seq<Symbol>, level: int) {
    (forall i :: 0 <= i < |syms| && !syms[i].marked ==> syms[i].level <= level) &&
    (forall i, j :: 0 <= i < j < |syms| && !syms[i].marked && !syms[j].marked ==>
                      syms[i].name != syms[j].name)
  }

  /** A declaration the lookup does not already answer keeps names in scope
      distinct. */
  lemma DeclarationKeepsNamesDistinct(syms: seq<Symbol>, s: Symbol, level: int)
    requires s.level <= level && FindSymbol(syms, s.name, level) == -1
    ensures ScopeInvariant(syms, level) ==> ScopeInvariant(syms + [s], level)
  {
    if !ScopeInvariant(syms, level) {
      return;
    }
    var t := syms + [s];
    forall i, j | 0 <= i < j < |t| && !t[i].marked && !t[j].marked
      ensures t[i].name != t[j].name
    {
      if j == |syms| {
        assert !Resolves(syms[i], s.name, level);
      }
    }
  }

  /** Entries from index `from` on that were declared at `level` leave
      scope; all others stay as they are. */
  function MarkScope(syms: seq<Symbol>, from: nat, level: nat): (r: seq<Symbol>)
    decreases |syms| - from
    ensures |r| == |syms|
    ensures forall i :: 0 <= i < |syms| ==>
              r[i] == if from <= i && syms[i].level == level then syms[i].(marked := true) else syms[i]
  {
    if from >= |syms| then syms
    else
      var s := syms[from];
      MarkScope(syms[from := if s.level == level then s.(marked := true) else s], from + 1, level)
  }

  /** Every entry leaves scope; nothing else changes. */
  function MarkAll(syms: seq<Symbol>): (r: seq<Symbol>)
    ensures |r| == |syms|
    ensures forall i :: 0 <= i < |syms| ==> r[i] == syms[i].(marked := true)
  {
    seq(|syms|, i requires 0 <= i < |syms| => syms[i].(marked := true))
  }

  /** How many entries are variables declared at `level`. */
  function VarsAt(syms: seq<Symbol>, level: nat): nat
    decreases |syms|
  {
    if syms == [] then 0
    else VarsAt(syms[..|syms| - 1], level) + (if syms[|syms| - 1].kind == VarSym && syms[|syms| - 1].level == level then 1 else 0)
  }

  lemma {:induction false} VarsAtAppend(a: seq<Symbol>, b: seq<Symbol>, level: nat)
    ensures VarsAt(a + b, level) == VarsAt(a, level) + VarsAt(b, level)
    decreases |b|
  {
    if b != [] {
      var b' := b[..|b| - 1];
      VarsAtAppend(a, b', level);
      assert (a + b)[..|a + b| - 1] == a + b';
      assert (a + b)[|a + b| - 1] == b[|b| - 1];
    } else {
      assert a + b == a;
    }
  }

  /** The count depends only on each entry's kind and level. */
  lemma {:induction false} VarsAtSameShape(a: seq<Symbol>, b: seq<Symbol>, level: nat)
    requires |a| == |b|
    requires forall i :: 0 <= i < |a| ==> a[i].kind == b[i].kind && a[i].level == b[i].level
    ensures VarsAt(a, level) == VarsAt(b, level)
    decreases |a|
  {
    if a != [] {
      VarsAtSameShape(a[..|a| - 1], b[..|b| - 1], level);
    }
  }

  lemma {:induction false} VarsAtNone(a: seq<Symbol>, level: nat)
    requires forall i :: 0 <= i < |a| ==> a[i].kind != VarSym || a[i].level != level
    ensures VarsAt(a, level) == 0
    decreases |a|
  {
    if a != [] {
      VarsAtNone(a[..|a| - 1], level);
    }
  }

  lemma {:induction false} VarsAtAll(a: seq<Symbol>, level: nat)
    requires forall i :: 0 <= i < |a| ==> a[i].kind == VarSym && a[i].level == level
    ensures VarsAt(a, level) == |a|
    decreases |a|
  {
    if a != [] {
      VarsAtAll(a[..|a| - 1], level);
    }
  }
}

=== FILE: tokens.dfy ===
/** Terminal symbols of PL/0 as the compiler numbers them, the reserved
    words, and the text each fixed token is written as. */
module Tokens {

  import opened Results

  /** The 33 token kinds, in the order of the compiler's enumeration. */
  datatype TokenKind =
    | Mod | Ident | Number | Plus | Minus | Times | Slash | Fi
    | Eql | Neq | Lss | Leq | Gtr | Geq | LParen | RParen
    | Comma | Semicolon | Period | Becomes | Begin | End | If | Then
    | While | Do | Call | Const | Var | Procedure | Write | Read | Else

  /** The numeric value of each kind in the compiler's enumeration. */
  function Code(k: TokenKind): int {
    match k
    case Mod => 1        case Ident => 2      case Number => 3
    case Plus => 4       case Minus => 5      case Times => 6
    case Slash => 7      case Fi => 8         case Eql => 9
    case Neq => 10       case Lss => 11       case Leq => 12
    case Gtr => 13       case Geq => 14       case LParen => 15
    case RParen => 16    case Comma => 17     case Semicolon => 18
    case Period => 19    case Becomes => 20   case Begin => 21
    case End => 22       case If => 23        case Then => 24
    case While => 25     case Do => 26        case Call => 27
    case Const => 28     case Var => 29       case Procedure => 30
    case Write => 31     case Read => 32      case Else => 33
  }

  /** Codes are 1..33 and no two kinds share one. */
  lemma CodeIsInjective(j: TokenKind, k: TokenKind)
    ensures 1 <= Code(k) <= 33
    ensures Code(j) == Code(k) ==> j == k
  {
  }

  /** A token: its kind, the spelling of identifiers and numbers (empty for
      every other kind), and the number of the source line it came from.
      The column the source also records is not modelled. */
  datatype Token = Token(kind: TokenKind, lexeme: string, line: int)

  /** The kinds spelled by a reserved word. */
  predicate IsKeyword(k: TokenKind) {
    k in {Mod, Const, Var, Procedure, Call, Begin, End, If, Then, Else, Fi, While, Do, Read, Write}
  }

  /** How every kind other than identifiers and numbers is written. */
  function FixedSpelling(k: TokenKind): string {
    match k
    case Mod => "mod"          case Const => "const"    case Var => "var"
    case Procedure => "procedure"                       case Call => "call"
    case Begin => "begin"      case End => "end"        case If => "if"
    case Then => "then"        case Else => "else"      case Fi => "fi"
    case While => "while"      case Do => "do"          case Read => "read"
    case Write => "write"
    case Plus => "+"           case Minus => "-"        case Times => "*"
    case Slash => "/"          case Eql => "="          case Neq => "<>"
    case Lss => "<"            case Leq => "<="         case Gtr => ">"
    case Geq => ">="           case LParen => "("       case RParen => ")"
    case Comma => ","          case Semicolon => ";"    case Period => "."
    case Becomes => ":="
    case Ident => ""           case Number => ""
  }

  /** The fifteen reserved spellings; the comparison is case-sensitive. */
  const ReservedSpellings: set<string> :=
    {"mod", "const", "var", "procedure", "call", "begin", "end", "if",
     "then", "else", "fi", "while", "do", "read", "write"}

  /** The reserved-word lookup: the kind a spelling is reserved for, tried
      in the compiler's order. */
  function Reserved(id: string): (r: Option<TokenKind>)
    ensures r.Some? <==> id in ReservedSpellings
    ensures r.Some? ==> IsKeyword(r.value) && FixedSpelling(r.value) == id
  {
    if id == "mod" then Some(Mod)
    else if id == "const" then Some(Const)
    else if id == "var" then Some(Var)
    else if id == "procedure" then Some(Procedure)
    else if id == "call" then Some(Call)
    else if id == "begin" then Some(Begin)
    else if id == "end" then Some(End)
    else if id == "if" then Some(If)
    else if id == "then" then Some(Then)
    else if id == "else" then Some(Else)
    else if id == "fi" then Some(Fi)
    else if id == "while" then Some(While)
    else if id == "do" then Some(Do)
    else if id == "read" then Some(Read)
    else if id == "write" then Some(Write)
    else None
  }

  /** The compiler's integer form of the lookup: the kind's code, or 0 for a
      spelling that is not reserved. */
  function ReservedWord(id: string): (r: int)
    ensures r == 0 <==> id !in ReservedSpellings
    ensures r != 0 ==> exists k :: IsKeyword(k) && Code(k) == r && FixedSpelling(k) == id
  {
    match Reserved(id)
    case Some(k) => Code(k)
    case None => 0
  }

  /** Each keyword's spelling is looked up to exactly that keyword. */
  lemma ReservedRecognisesKeywords(k: TokenKind)
    requires IsKeyword(k)
    ensures Reserved(FixedSpelling(k)) == Some(k)
    ensures ReservedWord(FixedSpelling(k)) == Code(k)
  {
    match k
    case Mod =>       case Const =>     case Var =>       case Procedure =>
    case Call =>      case Begin =>     case End =>       case If =>
    case Then =>      case Else =>      case Fi =>        case While =>
    case Do =>        case Read =>      case Write =>
  }

  /** The spelling of a token in source text. */
  function Spell(t: Token): string {
    if t.kind == Ident || t.kind == Number then t.lexeme else FixedSpelling(t.kind)
  }
}
